=== FILE: README.md ===
# go-stlink driver core, modelled in Dafny

This project models the protocol logic of a Go driver for ST-Link debug probes, the USB
adapters that program and debug STM32 microcontrollers. It covers four parts:

- **Command frames and reply decoding.** Every request is a 16-byte frame: the command at
  byte 0, the sub-command at byte 1, zeros elsewhere. Replies are decoded into the probe mode,
  the packed version fields and the target-voltage samples. A zero reference sample is an error.
- **The session.** `Session.Device` is a class with the fields of the Go `Device` that
  matter here: `opened` (named `isOpened`, since `opened` is a Dafny keyword), the cached
  `cpuID`, `coreState` and the product id. It also holds a transcript `log` of every request
  made. Sends and receives are refused on a session that is not opened. The out endpoint
  depends on the product. `init` runs mode query, DFU exit, mode re-query, SWD entry and
  status, in that order. `Close` never resets `opened`.
- **Chip identification.** The CPUID register (ARMv7-M Architecture Reference Manual,
  section B3.2.3) gives the Cortex-M part number. The part number picks the STM32 IDCODE
  address. The low 12 bits of IDCODE are the chip family. Fixed tables map the family to a
  group, a flash-size register and a flash-loader outcome. `CoreResetHalt` is the fail-fast
  write sequence to DHCSR, DEMCR and AIRCR (sections C1.6.2, C1.6.5 and B3.2.6 of the same
  manual), followed by a read-back.
- **Probe discovery.** Enumeration keeps only ST-Link V2 and V2-1 devices. A serial number
  that is not valid Base16 (RFC 4648 section 8) is replaced by the lower-case Base16 of its
  bytes. `OpenDevice` picks the first probe whose serial matches, or the first probe when
  the serial is empty.

The USB layer is not modelled. Its place is taken by a `Transport.Link`: a function from
the transcript so far to the probe's answer to the last request. Any probe behaviour is some
`Link`. The register operations whose bodies are not part of this model (`Read32`,
`Write32`, `Read16`, `Status`, `ExitDFUMode`, `EnterSWDMode`) append one request to the
transcript and return the link's answer; nothing else is assumed about them. Go's
`(value, error)` pairs are mostly kept as pairs, with the error an `Option<Error>`. Where
Go returns an empty string or a float beside an error, the value is an `Option` instead.
There are three exceptions:
- `DebugRegs.GetStatus` and `DebugRegs.GetClockSpeed` always fail, so they return a plain
  `(value, Error)` pair.
- `Session.DeviceName` returns a `Result<string>`.
- `Session.Device.GetFlashloader` keeps only the error, because the loader it returns is
  always nil.

Each query of `Session.Device` (`Mode`, `Version`, `TargetVoltage`, `CoreID`,
`CortexMPartNumber`, `ChipID`, `DevID`, `FlashSize`, `Init`) has a `Protocol` function.
That function gives the transcript and the result in terms of the link and the state before
the call, and the method's postcondition equates the two. The properties are stated, and
proved, on those functions. `CoreResetHalt` is tied to `Transport.FailFast`, and
`GetFlashloader` to `Protocol.QueryDevId` and `ChipFamilies.Flashloader`. The other methods
state their effect directly in their postconditions: the transport primitives (`Write`,
`Read`, `ReadBinary`), the six register operations above, `CpuID` and `Close`.

Modules: `Base` (errors, Option, Result), `Commands` (commands.go), `CortexM`
(device_cortexm.go), `ChipFamilies` (the tables of device_idcodes.go and flashloader.go),
`Wire` (little-endian words), `Modes` (reply decoding of device_commands.go), `DebugRegs`
(device_debug_stm32.go constants, device_debug.go), `Serial` (serial normalisation),
`Transport` (link, transcript, send/receive), `Protocol` (call specifications), `Session`
(device.go and the Device methods) and `Registry` (stlink.go).

## Model

| member | source | states |
|---|---|---|
| Commands.Frame | device_commands.go:32-34 | a frame is 16 bytes: command at 0, sub-command at 1, zeros after |
| Commands.FrameInjective | commands.go:3-36 | two frames are equal exactly when command and sub-command both are |
| Commands.TopLevelCommandsDistinct | commands.go:6-12 | the top-level commands 0xf1, 0xf2, 0xf3, 0xf5, 0xf7 are pairwise distinct |
| Commands.WriteRegIsWriteRegpc | commands.go:26-29 | WriteReg and WriteRegpc share the value 0x34 |
| Commands.SubCommandsOverlap | commands.go:9-15 | DfuExit equals DebugReadMem32 (0x07), yet the two frames differ by byte 0 |
| CortexM.PartNumbersDistinct | device_cortexm.go:5-13 | the six named part numbers are distinct and differ from Unknown |
| CortexM.PartNumberOf | device_cortexm.go:76 | the part number is bits [15:4] of CPUID, so it is at most 0xfff |
| CortexM.ConstName | device_cortexm.go:15-31 | total; "CortexMPartNumberUnknown" exactly for unnamed part numbers |
| CortexM.PartName | device_cortexm.go:33-49 | a known part gets a known name, every other value "unknown" |
| CortexM.PartNumberFromName | device_cortexm.go:51-67 | Unknown exactly for strings other than the six names |
| CortexM.NameRoundTrip | device_cortexm.go:33-67 | parsing the name of a known part gives the part back; any other value gives Unknown |
| CortexM.ParseRoundTrip | device_cortexm.go:33-67 | naming the part parsed from a known name gives the name back |
| ChipFamilies.GroupName | device_idcodes.go:98-110 | only the unknown group is named "unknown" |
| ChipFamilies.Group | device_idcodes.go:112-141 | each group holds exactly its listed families; unlisted codes are unknown; known codes fit 12 bits |
| ChipFamilies.FamiliesDistinct | device_idcodes.go:52-96 | the 43 family codes form a strictly increasing chain within 12 bits, so they are distinct |
| ChipFamilies.FamilyOf | device_idcodes.go:143-146 | the family is the low 12 bits of the IDCODE |
| ChipFamilies.FlashSizeRegister | device_idcodes.go:153-188 | an address exactly for known families, the group's flash-size register, per the address table |
| ChipFamilies.FlashSizeExamples | device_idcodes.go:153-169 | 0x419 uses 0x1fff7a22, 0x440 uses 0x1ffff7cc, unlisted codes have none |
| ChipFamilies.Flashloader | flashloader.go:11-52 | DevID errors pass through; success exactly for the F0, F1, F3, L1 and L4 groups; otherwise "unknown core" |
| Wire.Le32 | device_idcodes.go:17-21 | the little-endian word of four bytes; zero exactly for four zero bytes |
| Wire.Le32RoundTrip | device_idcodes.go:17-21 | encoding and decoding little-endian words are inverse both ways |
| Wire.Int32 | device_commands.go:76-83 | two's-complement int32 value; zero exactly for the zero word |
| Modes.ModeName | device_commands.go:18-28 | 0x02 "debug", 0x00 "dfu", 0x01 "mass", anything else "unknown" |
| Modes.DecodeMode | device_commands.go:42-47 | the three known bytes map to themselves, any other to Unknown |
| Modes.DecodeModeIdempotent | device_commands.go:42-47 | decoding a decoded mode changes nothing |
| Modes.DecodeVersion | device_commands.go:62-64 | fields within 4, 6 and 6 bits; repacking them gives rx0:rx1 back |
| Modes.DecodeVersionInjective | device_commands.go:62-64 | distinct first two bytes give distinct versions |
| Modes.DecodeVoltage | device_commands.go:77-84 | "measured voltage is zero" exactly when the first sample is zero, whatever the second is |
| DebugRegs.RegisterWords | device_debug_stm32.go:3-24 | keys and control bits do not overlap; the composed DHCSR and AIRCR words have their literal values |
| DebugRegs.StatusCodesDistinct | device_debug.go:7-11 | Unknown, Running and Halted are distinct |
| DebugRegs.GetStatus | device_debug.go:13-15 | always "not implemented", with exactly the Unknown status 0xff (neither Running nor Halted) |
| DebugRegs.ClockSpeedsMonotonic | device_debug.go:17-32 | the divisor rises strictly as the frequency falls, from 0 at 4000 to 798 at 5 |
| DebugRegs.GetClockSpeed | device_debug.go:34-36 | always "not implemented", with the 5 kHz divisor |
| Serial.HexEncode | stlink.go:70-73 | two lower-case hex digits (0-9, a-f) per byte |
| Serial.HexRoundTrip | stlink.go:70-73 | the encoding is valid hex and decodes back to the input |
| Serial.Normalize | stlink.go:70-73 | valid hex is kept; anything else is replaced by its lower-case encoding, twice as long and decoding back to it |
| Serial.NormalizeIdempotent | stlink.go:99-102 | the result is valid hex, so normalising twice equals normalising once |
| Transport.Fit | device.go:110-120 | read(n) returns exactly n bytes: the received prefix, zero-filled |
| Transport.Exchange | device.go:102-120 | closed session: "device closed" and no request; a failed send ends with its error and no receive; a good send is followed by the receive, whose error is returned; on success exactly n bytes |
| Transport.ReadFull | device_commands.go:77-80 | a binary read succeeds exactly when n bytes arrived, even beside a transfer error; otherwise the transfer error (EOF after some bytes becomes unexpected EOF), or EOF / unexpected EOF for an empty / short transfer |
| Transport.ExchangeFull | device_idcodes.go:12-20 | closed session: "device closed" and no request; a failed send ends with its error and no receive; a good send is followed by the receive; then success exactly when n bytes arrived, else ReadFull's error |
| Transport.FailFast | device_debug_stm32.go:26-37 | requests stop at the first failure; the transcript grows by that prefix and the error is the last request's |
| Protocol.QueryMode | device_commands.go:30-48 | transcript and error are those of sending [0xf5, 0...] and receiving 2 bytes; the value is byte 0 when it is 0x00, 0x01 or 0x02 and Unknown otherwise; Unknown beside any error |
| Protocol.QueryVersion | device_commands.go:50-67 | transcript and error are those of sending [0xf1, 0...] and receiving 6 bytes; the value decodes only the first two |
| Protocol.QueryVoltage | device_commands.go:69-86 | sends [0xf7, 0...]; after a good read, "measured voltage is zero" exactly for a zero first word, else success with the two int32 samples of the reply; no value beside an error |
| Protocol.QueryCoreId | device_idcodes.go:8-22 | transcript and error are those of sending [0xf2, 0x22, 0...] and a binary read of 4 bytes; closed: "device closed"; a failed send returns 0 with its error; success exactly when 4 bytes arrive, and the result is their little-endian word |
| Protocol.LookupPart | device_cortexm.go:69-77 | a non-zero cache is used with no read; otherwise one CPUID read; Unknown beside its error; result at most 0xfff |
| Protocol.CachedCpuId | device_idcodes.go:40-48 | the cache changes only through a successful read of an empty cache |
| Protocol.ZeroCpuIdIsReadAgain | device_idcodes.go:44-46 | after a failed read or a read of 0 the cache stays empty and the next lookup reads again |
| Protocol.IdCodeAddress | device_idcodes.go:24-38 | 0x40015800 exactly for M0 and M0+, 0xE0042000 for every other part number |
| Protocol.QueryChipId | device_idcodes.go:29-38 | a part-number error is returned with 0 and no IDCODE read; otherwise one read at IdCodeAddress |
| Protocol.QueryDevId | device_idcodes.go:143-146 | ChipID's value masked to 12 bits, beside ChipID's own error |
| Protocol.QueryFlashSize | device_idcodes.go:148-189 | DevID errors first; "unknown core" with no read exactly for unknown families; else one Read16 at the table's address, whose value and error are returned |
| Protocol.ResetHaltSequenceValues | device_debug_stm32.go:26-37 | the four requests are DHCSR Halt, DEMCR 1, AIRCR SysResetReq, then a read of AIRCR |
| Protocol.QueryModeRequests | device_commands.go:30-41 | a mode query only appends USB transfers: it never issues the DFU exit, the SWD entry or the status request |
| Protocol.SwdThenStatus | device.go:68-76 | in debug mode only the status request is sent; otherwise SWD entry first, whose failure ends init with that error and no status request, else the status request follows and its error is the result |
| Protocol.EnterDebug | device.go:64-76 | a failed re-query ends init with the query's transcript and error; otherwise the outcome is SwdThenStatus on the re-queried mode after the query's transcript; never issues the DFU exit |
| Protocol.EnterDebugRequests | device.go:64-76 | the SWD entry is issued exactly when the re-query succeeds with a mode other than debug; whenever the status request is issued it is the last request and its error is init's |
| Protocol.LeaveDfu | device.go:57-62 | the DFU exit is issued exactly when the mode is DFU; a failed exit ends init with no error |
| Protocol.InitSequence | device.go:31-77 | claim first; a claim or first-mode error ends init with that error; otherwise LeaveDfu |
| Session.OutEndpoint | device.go:42-47 | out endpoint 1 exactly for product 0x374b, 2 otherwise |
| Session.DeviceName | device.go:90-100 | the three product names; "unknown device" exactly for other products |
| Session.Device.constructor | stlink.go:93-98 | a new session: given product, serial and opened flag, empty cache and transcript |
| Session.Device.Write | device.go:102-108 | closed: "device closed" and no request; opened: one send on the out endpoint |
| Session.Device.Read | device.go:110-120 | closed: "device closed" and no request; opened: nil beside an error, else n bytes |
| Session.Device.ReadBinary | device_commands.go:78 | a binary read on the in endpoint, with no opened guard |
| Session.Device.Read32 | device_idcodes.go:35-37 | one Read32 request; value and error are the probe's |
| Session.Device.Write32 | device_debug_stm32.go:27-34 | one Write32 request; the error is the probe's |
| Session.Device.Read16 | device_idcodes.go:158 | one Read16 request; value and error are the probe's |
| Session.Device.Status | device.go:75 | one status request; value and error are the probe's |
| Session.Device.ExitDFUMode | device.go:58 | one DFU-exit request; the error is the probe's |
| Session.Device.EnterSWDMode | device.go:69 | one SWD-entry request; the error is the probe's |
| Session.Device.Command | device_commands.go:32-33 | the buffer built by make and two stores equals Frame |
| Session.Device.Mode | device_commands.go:30-48 | behaves as QueryMode |
| Session.Device.Version | device_commands.go:50-67 | behaves as QueryVersion |
| Session.Device.TargetVoltage | device_commands.go:69-86 | behaves as QueryVoltage |
| Session.Device.CoreID | device_idcodes.go:8-22 | behaves as QueryCoreId |
| Session.Device.CpuID | device_idcodes.go:42-48 | reads 0xE000ED00; the cache takes the value only when the read succeeds |
| Session.Device.CortexMPartNumber | device_cortexm.go:69-77 | behaves as LookupPart; the cache becomes CachedCpuId |
| Session.Device.ChipID | device_idcodes.go:29-38 | behaves as QueryChipId |
| Session.Device.DevID | device_idcodes.go:143-146 | behaves as QueryDevId |
| Session.Device.FlashSize | device_idcodes.go:148-189 | behaves as QueryFlashSize |
| Session.Device.GetFlashloader | flashloader.go:11-52 | DevID's requests, then the Flashloader outcome of its result |
| Session.Device.CoreResetHalt | device_debug_stm32.go:26-37 | behaves as FailFast over the four reset requests; the read-back value is dropped |
| Session.Device.Init | device.go:31-77 | behaves as InitSequence; afterwards the session is claimed whenever init succeeded |
| Session.Device.Close | device.go:79-88 | not opened: nothing happens and no error; opened: one release request; opened is never reset |
| Registry.ProbeAll | stlink.go:35-42 | keeps exactly the devices of vendor 0x0483 with product 0x374b or 0x3748; V1 is rejected |
| Registry.ProbeAllAppend | stlink.go:35-42 | the filter keeps enumeration order: filtering a concatenation is concatenating the filtered parts |
| Registry.ProbeAllCount | stlink.go:35-42 | an accepted device is kept as many times as it is enumerated, any other not at all |
| Registry.SerialOf | stlink.go:99-102 | the serial a probe is listed and matched under is always valid hex |
| Registry.Probe | stlink.go:47-77 | one unopened entry per accepted probe, in order, with normalised serial; the first descriptor error aborts with no list |
| Registry.FirstMatch | stlink.go:87-112 | the first device whose descriptor fails or whose serial is selected; every earlier device was passed |
| Registry.FirstMatchAt | stlink.go:87-112 | a scan that passed every device before i and stops at i (end, failed descriptor or selected serial) has found exactly FirstMatch |
| Registry.SkipUnselected | stlink.go:87-110 | every probe before the first failed descriptor or selected serial is opened and closed again; the j-th closed session is that of the j-th probe |
| Registry.Skip | stlink.go:93-110 | an unselected probe gets an opened session with its product, link and normalised serial, which is then closed |
| Registry.Attach | stlink.go:103-108 | the selected probe is initialised: when init succeeds, the session over that probe's link, product and serial is returned; when init fails, its own session is closed and init's error returned |
| Registry.OpenDevice | stlink.go:82-113 | result per FirstMatch: a descriptor error, "device not found", init's error, or the initialised session over the first match's link; the j-th closed session is that of the j-th accepted probe |

## Left out

- The USB layer (gousb): context creation, device enumeration, `DefaultInterface`,
  `InEndpoint`, `OutEndpoint`, endpoint reads and writes and string descriptors. A `Link`
  takes their place. An enumeration result is an input to `Registry.Probe` and
  `Registry.OpenDevice`, and so is the link of every device (by bus address).
- Claiming the interface and the two endpoints is one `Claimed` request that succeeds or
  fails as a whole. The source makes three calls, and a failed later call leaves the earlier
  handles set.
- Transport.ReadFull and Transport.ExchangeFull model one transfer. `io.ReadFull` reads the
  endpoint again after a short transfer that reported no error; the model treats such a
  transfer as the end of the stream (EOF or unexpected EOF) instead of reading again.
- The bodies of `Read32`, `Write32`, `Read16`, `Status`, `ExitDFUMode`, `EnterSWDMode`,
  `ForceDebug`, `Run` and `HardReset` are not part of this model. The first six only record
  a request and return the link's answer. `ForceDebug`, `Run` and `HardReset` are not called
  by the modelled code. Whatever `Status` does to `coreState` is therefore not modelled.
- Session.Device.Write, Session.Device.Read and the queries built on them require `Valid()`.
  An opened session whose endpoints were never claimed would dereference nil endpoints in
  the source.
- Session.Device.TargetVoltage stops at the two int32 samples; the float `2.4 * v1 / v0` is
  not computed.
- Session.Device.Version returns the three version fields, not the `V%dJ%dS%d` string.
- `Device.String` (display formatting, including its `v < 1` float test) is not modelled.
  The same goes for the command-line front end, the `Target` struct and the `Stlink`
  context's `New`/`Close`.
- Registry.Probe returns `DeviceInfo` values (product, serial, opened = false) rather than
  `Device` objects. It does not model the deferred closing of the enumerated USB handles.
- Registry.OpenDevice does not close the handles of probes after the selected one. The source
  does not close them either. The enumeration error is modelled as one error with no devices,
  because the source discards the list when the error is set.
- Serial numbers are byte sequences. Go strings are bytes, and `hex.EncodeToString` works on
  those bytes.

=== FILE: base.dfy ===
/** Error values and the Option/Result wrappers that stand for Go's `(value, error)` returns. */
module Base {

  /** The errors the driver produces itself, and the opaque ones the USB layer reports. */
  datatype Error =
    | DeviceClosed          // "device closed": send or receive on a session that is not open
    | Eof                   // a fixed-size binary read found no byte at all
    | UnexpectedEof         // a fixed-size binary read found some, but fewer than it needs
    | MeasuredVoltageZero   // "measured voltage is zero": the reference sample is 0
    | UnknownCore           // "unknown core": no table entry for the chip family
    | UnknownDevice         // "unknown device": product id without a name
    | NotImplemented        // "not implemented": the status and clock-speed stubs
    | DeviceNotFound        // "device not found": no probe matched the serial
    | Usb(code: int)        // any error the USB layer or the probe reports

  datatype Option<+T> = None | Some(value: T)

  datatype Result<+T> = Ok(value: T) | Err(error: Error)

  /** The byte type of frames and replies. */
  type byte = bv8
}

=== FILE: chip_families.dfy ===
/** STM32 chip families: the 12-bit device identifiers, their coarse groups and the address of
    the flash-size register of each family (the tables of device_idcodes.go). */
module ChipFamilies {
  import opened Base

  /** ChipFamily is a uint16 holding the low 12 bits of the IDCODE register. */
  type ChipFamily = bv16

  const STM32F0: ChipFamily := 0x440
  const STM32F0Can: ChipFamily := 0x448
  const STM32F0Small: ChipFamily := 0x444
  const STM32F04: ChipFamily := 0x445
  const STM32F09X: ChipFamily := 0x442
  const STM32F1Connectivity: ChipFamily := 0x418
  const STM32F1High: ChipFamily := 0x414
  const STM32F1Low: ChipFamily := 0x412
  const STM32F1Medium: ChipFamily := 0x410
  const STM32F1VLHigh: ChipFamily := 0x428
  const STM32F1VLMedium: ChipFamily := 0x420
  const STM32F1XL: ChipFamily := 0x430
  const STM32F2: ChipFamily := 0x411
  const STM32F3: ChipFamily := 0x422
  const STM32F3Small: ChipFamily := 0x439
  const STM32F303High: ChipFamily := 0x446
  const STM32F334: ChipFamily := 0x438
  const STM32F37x: ChipFamily := 0x432
  const STM32F4: ChipFamily := 0x413
  const STM32F4DE: ChipFamily := 0x433
  const STM32F4DSI: ChipFamily := 0x434
  const STM32F4HD: ChipFamily := 0x419
  const STM32F4LP: ChipFamily := 0x423
  const STM32F410: ChipFamily := 0x458
  const STM32F411RE: ChipFamily := 0x431
  const STM32F412: ChipFamily := 0x441
  const STM32F413: ChipFamily := 0x463
  const STM32F446: ChipFamily := 0x421
  const STM32F7: ChipFamily := 0x449
  const STM32F7Advanced: ChipFamily := 0x451
  const STM32F7Foundation: ChipFamily := 0x452
  const STM32L0: ChipFamily := 0x417
  const STM32L0Cat2: ChipFamily := 0x425
  const STM32L0Cat5: ChipFamily := 0x447
  const STM32L011: ChipFamily := 0x457
  const STM32L1Cat2: ChipFamily := 0x429
  const STM32L1High: ChipFamily := 0x436
  const STM32L1MediumLow: ChipFamily := 0x416
  const STM32L1MediumHigh: ChipFamily := 0x427
  const STM32L152RE: ChipFamily := 0x437
  const STM32L4: ChipFamily := 0x415
  const STM32L434X: ChipFamily := 0x435
  const STM32L4X6: ChipFamily := 0x461

  // The members of each group, as the group switch lists them.
  const F0Families: set<ChipFamily> := {STM32F0, STM32F0Can, STM32F0Small, STM32F04, STM32F09X}
  const F1Families: set<ChipFamily> :=
    {STM32F1Connectivity, STM32F1High, STM32F1Low, STM32F1Medium, STM32F1VLHigh, STM32F1VLMedium, STM32F1XL}
  const F2Families: set<ChipFamily> := {STM32F2}
  const F3Families: set<ChipFamily> := {STM32F3, STM32F3Small, STM32F303High, STM32F334, STM32F37x}
  const F4Families: set<ChipFamily> :=
    {STM32F4, STM32F4DE, STM32F4DSI, STM32F4HD, STM32F4LP, STM32F410, STM32F411RE, STM32F412, STM32F413, STM32F446}
  const F7Families: set<ChipFamily> := {STM32F7, STM32F7Advanced, STM32F7Foundation}
  const L0Families: set<ChipFamily> := {STM32L0, STM32L0Cat2, STM32L0Cat5, STM32L011}
  const L1Families: set<ChipFamily> := {STM32L1Cat2, STM32L1High, STM32L1MediumLow, STM32L1MediumHigh, STM32L152RE}
  const L4Families: set<ChipFamily> := {STM32L4, STM32L434X, STM32L4X6}

  /** Every family code the driver knows. */
  const KnownFamilies: set<ChipFamily> :=
    F0Families + F1Families + F2Families + F3Families + F4Families + F7Families
    + L0Families + L1Families + L4Families

  /** ChipFamilyGroup: the nine named groups and the "unknown" answer. */
  datatype FamilyGroup = GroupL0 | GroupL1 | GroupL4 | GroupF0 | GroupF1 | GroupF2 | GroupF3 | GroupF4 | GroupF7 | GroupUnknown

  /** The string value of each group. */
  function GroupName(g: FamilyGroup): (s: string)
    ensures s == "unknown" <==> g == GroupUnknown
  {
    match g
    case GroupL0 => "stm32l0"
    case GroupL1 => "stm32l1"
    case GroupL4 => "stm32l4"
    case GroupF0 => "stm32f0"
    case GroupF1 => "stm32f1"
    case GroupF2 => "stm32f2"
    case GroupF3 => "stm32f3"
    case GroupF4 => "stm32f4"
    case GroupF7 => "stm32f7"
    case GroupUnknown => "unknown"
  }

  /** The group of a family code (ChipFamily.Group). */
  function Group(cf: ChipFamily): (g: FamilyGroup)
    ensures g == GroupF0 <==> cf in F0Families
    ensures g == GroupF1 <==> cf in F1Families
    ensures g == GroupF2 <==> cf in F2Families
    ensures g == GroupF3 <==> cf in F3Families
    ensures g == GroupF4 <==> cf in F4Families
    ensures g == GroupF7 <==> cf in F7Families
    ensures g == GroupL0 <==> cf in L0Families
    ensures g == GroupL1 <==> cf in L1Families
    ensures g == GroupL4 <==> cf in L4Families
    ensures g == GroupUnknown <==> cf !in KnownFamilies
    ensures g != GroupUnknown ==> STM32F1Medium <= cf <= STM32F413 <= 0xfff
  {
    if cf == STM32F0 || cf == STM32F0Can || cf == STM32F0Small || cf == STM32F04 || cf == STM32F09X then GroupF0
    else if cf == STM32F1Connectivity || cf == STM32F1High || cf == STM32F1Low || cf == STM32F1Medium
         || cf == STM32F1VLHigh || cf == STM32F1VLMedium || cf == STM32F1XL then GroupF1
    else if cf == STM32F2 then GroupF2
    else if cf == STM32F3 || cf == STM32F3Small || cf == STM32F303High || cf == STM32F334 || cf == STM32F37x then GroupF3
    else if cf == STM32F4 || cf == STM32F4DE || cf == STM32F4DSI || cf == STM32F4HD || cf == STM32F4LP
         || cf == STM32F410 || cf == STM32F411RE || cf == STM32F412 || cf == STM32F413 || cf == STM32F446 then GroupF4
    else if cf == STM32F7 || cf == STM32F7Advanced || cf == STM32F7Foundation then GroupF7
    else if cf == STM32L0 || cf == STM32L0Cat2 || cf == STM32L0Cat5 || cf == STM32L011 then GroupL0
    else if cf == STM32L1Cat2 || cf == STM32L1High || cf == STM32L1MediumLow || cf == STM32L1MediumHigh
         || cf == STM32L152RE then GroupL1
    else if cf == STM32L4 || cf == STM32L434X || cf == STM32L4X6 then GroupL4
    else GroupUnknown
  }

  /** The 43 family constants are pairwise distinct: listed in increasing order they form a
      strictly increasing chain. All of them fit in 12 bits. */
  lemma FamiliesDistinct()
    ensures STM32F1Medium < STM32F2 < STM32F1Low < STM32F4 < STM32F1High < STM32L4 <
      STM32L1MediumLow < STM32L0 < STM32F1Connectivity < STM32F4HD < STM32F1VLMedium < STM32F446 <
      STM32F3 < STM32F4LP < STM32L0Cat2 < STM32L1MediumHigh < STM32F1VLHigh < STM32L1Cat2 <
      STM32F1XL < STM32F411RE < STM32F37x < STM32F4DE < STM32F4DSI < STM32L434X < STM32L1High <
      STM32L152RE < STM32F334 < STM32F3Small < STM32F0 < STM32F412 < STM32F09X < STM32F0Small <
      STM32F04 < STM32F303High < STM32L0Cat5 < STM32F0Can < STM32F7 < STM32F7Advanced <
      STM32F7Foundation < STM32L011 < STM32F410 < STM32L4X6 < STM32F413 <= 0xfff
  {
  }

  /** The family code of an IDCODE value: its low 12 bits (DevID's mask). */
  function FamilyOf(idcode: bv32): (cf: ChipFamily)
    ensures cf <= 0xfff
    ensures cf as bv32 == idcode & 0xfff
  {
    (idcode & 0xfff) as bv16
  }

  /** The address of the flash-size register of a family (the switch in FlashSize);
      None is the "unknown core" case. */
  function FlashSizeRegister(cf: ChipFamily): (a: Option<bv32>)
    // The address table covers exactly the families the group table covers.
    ensures a.Some? <==> Group(cf) != GroupUnknown
    // Independent statement of the table, by group.
    ensures Group(cf) in {GroupF0, GroupF3} ==> a == Some(0x1ffff7cc)
    ensures Group(cf) == GroupF1 ==> a == Some(0x1ffff7e0)
    ensures Group(cf) in {GroupF2, GroupF4} || cf == STM32F7Foundation ==> a == Some(0x1fff7a22)
    ensures Group(cf) == GroupL4 ==> a == Some(0x1fff75e0)
    ensures Group(cf) == GroupL0 ==> a == Some(0x1ff8007c)
    ensures Group(cf) == GroupL1 ==> a == Some(if cf in {STM32L1MediumLow, STM32L1Cat2} then 0x1ff8004c else 0x1ff800cc)
    ensures Group(cf) == GroupF7 && cf != STM32F7Foundation ==> a == Some(0x1ff0f442)
  {
    if cf == STM32F0 || cf == STM32F09X || cf == STM32F0Can || cf == STM32F0Small || cf == STM32F04
       || cf == STM32F3 || cf == STM32F37x || cf == STM32F334 || cf == STM32F3Small || cf == STM32F303High then
      Some(0x1ffff7cc)
    else if cf == STM32F1Medium || cf == STM32F1High || cf == STM32F1Low || cf == STM32F1Connectivity
            || cf == STM32F1VLMedium || cf == STM32F1VLHigh || cf == STM32F1XL then
      Some(0x1ffff7e0)
    else if cf == STM32F2 || cf == STM32F4 || cf == STM32F4HD || cf == STM32F446 || cf == STM32F411RE
            || cf == STM32F4DE || cf == STM32F4DSI || cf == STM32F412 || cf == STM32F410 || cf == STM32F413
            || cf == STM32F7Foundation || cf == STM32F4LP then
      Some(0x1fff7a22)
    else if cf == STM32L4 || cf == STM32L434X || cf == STM32L4X6 then
      Some(0x1fff75e0)
    else if cf == STM32L011 || cf == STM32L0Cat2 || cf == STM32L0 || cf == STM32L0Cat5 then
      Some(0x1ff8007c)
    else if cf == STM32L1MediumLow || cf == STM32L1Cat2 then
      Some(0x1ff8004c)
    else if cf == STM32L1MediumHigh || cf == STM32L1High || cf == STM32L152RE then
      Some(0x1ff800cc)
    else if cf == STM32F7 || cf == STM32F7Advanced then
      Some(0x1ff0f442)
    else
      None
  }

  /** The outcome of getFlashloader for a DevID result. The source's loader value is always nil,
      so only the error half is kept: None is (nil, nil), Some(e) is (nil, e). */
  function Flashloader(devId: Result<ChipFamily>): (r: Option<Error>)
    ensures devId.Err? ==> r == Some(devId.error)
    // It succeeds exactly for the F0, F1, F3, L1 and L4 groups ...
    ensures devId.Ok? ==> (r.None? <==> Group(devId.value) in {GroupF0, GroupF1, GroupF3, GroupL1, GroupL4})
    // ... and every other code, the F2/F4/F7 and L0 cases included, reaches "unknown core".
    ensures devId.Ok? && r.Some? ==> r.value == UnknownCore
  {
    match devId
    case Err(e) => Some(e)
    case Ok(cf) =>
      if cf == STM32F0 || cf == STM32F09X || cf == STM32F0Small || cf == STM32F04 || cf == STM32F0Can
         || cf == STM32F1Medium || cf == STM32F1Low || cf == STM32F1High || cf == STM32F1Connectivity
         || cf == STM32F1VLMedium || cf == STM32F3 || cf == STM32F1VLHigh || cf == STM32F37x || cf == STM32F334
         || cf == STM32F3Small || cf == STM32F303High then
        None
      else if cf == STM32F2 || cf == STM32F4 || cf == STM32F4HD || cf == STM32F446 || cf == STM32F4LP
              || cf == STM32F411RE || cf == STM32F4DE || cf == STM32F4DSI || cf == STM32F412 || cf == STM32F410
              || cf == STM32F7 || cf == STM32F7Advanced || cf == STM32F413 || cf == STM32F7Foundation then
        // The case body holds only comments; Go does not fall through, so the switch is left.
        Some(UnknownCore)
      else if cf == STM32F1XL then
        None
      else if cf == STM32L011 || cf == STM32L0Cat2 || cf == STM32L0 || cf == STM32L0Cat5 then
        Some(UnknownCore)
      else if cf == STM32L1MediumLow || cf == STM32L1MediumHigh || cf == STM32L1Cat2 || cf == STM32L1High
              || cf == STM32L152RE || cf == STM32L4 || cf == STM32L434X || cf == STM32L4X6 then
        None
      else
        Some(UnknownCore)
  }

  /** Examples: the F4 high-density and F0 families and an unlisted code. */
  lemma FlashSizeExamples()
    ensures FlashSizeRegister(0x419) == Some(0x1fff7a22)
    ensures FlashSizeRegister(0x440) == Some(0x1ffff7cc)
    ensures FlashSizeRegister(0x000) == None && FlashSizeRegister(0xfff) == None
  {
  }
}

=== FILE: commands.dfy ===
/** The ST-Link command bytes (commands.go) and the 16-byte command frame they are placed in. */
module Commands {
  import opened Base

  /** Every command frame is 16 bytes long. */
  const CmdSize: nat := 16

  // Top-level commands, placed at byte 0 of a frame.
  const CmdGetVersion: byte := 0xf1
  const CmdDebug: byte := 0xf2
  const CmdDfu: byte := 0xf3
  const CmdGetCurrentMode: byte := 0xf5
  const CmdGetTargetVoltage: byte := 0xf7

  // Sub-command of the DFU family.
  const CmdDfuExit: byte := 0x07
  const CmdDfuGetVersion: byte := 0x08

  // Sub-commands of the debug family, placed at byte 1 after CmdDebug.
  const CmdDebugGetStatus: byte := 0x01
  const CmdDebugForce: byte := 0x02
  const CmdDebugReadMem32: byte := 0x07
  const CmdDebugWriteMem32: byte := 0x08
  const CmdDebugWriteMem8: byte := 0x0d
  const CmdDebugEnterMode: byte := 0x20
  const CmdDebugEnterSwd: byte := 0xa3
  const CmdDebugEnterJtag: byte := 0x00
  const CmdDebugExit: byte := 0x21
  const CmdDebugReadCoreid: byte := 0x22
  const CmdDebugResetsys: byte := 0x03
  const CmdDebugReadallregs: byte := 0x04
  const CmdDebugReadReg: byte := 0x33
  const CmdDebugWriteReg: byte := 0x34
  const CmdDebugRunCore: byte := 0x09
  const CmdDebugStepCore: byte := 0x0a
  const CmdDebugWriteRegpc: byte := 0x34
  const CmdDebugHardReset: byte := 0x3c
  const CmdDebugReadcoreregs: byte := 0x3a
  const CmdDebugSetfp: byte := 0x0b
  const CmdDebugJtagWritedebug32bit: byte := 0x35
  const CmdDebugJtagReaddebug32bit: byte := 0x36
  const CmdDebugSwdSetFreq: byte := 0x43

  /** A zero-filled 16-byte frame with the command at offset 0 and the sub-command at offset 1
      (0 for single-byte commands, the value Go's make leaves there). */
  function Frame(cmd: byte, sub: byte): (f: seq<byte>)
    ensures |f| == CmdSize
    ensures f[0] == cmd && f[1] == sub
    ensures forall i :: 2 <= i < |f| ==> f[i] == 0
  {
    [cmd, sub] + seq(CmdSize - 2, _ => 0)
  }

  /** Two frames are equal exactly when they carry the same command and sub-command. */
  lemma FrameInjective(c1: byte, s1: byte, c2: byte, s2: byte)
    ensures Frame(c1, s1) == Frame(c2, s2) <==> c1 == c2 && s1 == s2
  {
    if Frame(c1, s1) == Frame(c2, s2) {
      assert Frame(c1, s1)[0] == Frame(c2, s2)[0];
      assert Frame(c1, s1)[1] == Frame(c2, s2)[1];
    }
  }

  /** The top-level commands are pairwise distinct, so byte 0 alone tells them apart. */
  lemma TopLevelCommandsDistinct()
    ensures |{CmdGetVersion, CmdDebug, CmdDfu, CmdGetCurrentMode, CmdGetTargetVoltage}| == 5
  {
  }

  /** Writing a register and writing the program counter share one sub-command byte. */
  lemma WriteRegIsWriteRegpc()
    ensures CmdDebugWriteReg == CmdDebugWriteRegpc == 0x34
  {
  }

  /** Sub-command values repeat across families: DFU exit and 32-bit memory read are both 0x07,
      so a sub-command means something only together with byte 0. */
  lemma SubCommandsOverlap()
    ensures CmdDfuExit == CmdDebugReadMem32
    ensures Frame(CmdDfu, CmdDfuExit) != Frame(CmdDebug, CmdDebugReadMem32)
  {
    FrameInjective(CmdDfu, CmdDfuExit, CmdDebug, CmdDebugReadMem32);
  }
}

=== FILE: cortexm.dfy ===
/** Cortex-M core identification: the PARTNO field of the CPUID register (ARMv7-M Architecture
    Reference Manual, section B3.2.3) and the names of the known parts (device_cortexm.go). */
module CortexM {

  /** CortexMPartNumber is a uint16. */
  type PartNumber = bv16

  const PartUnknown: PartNumber := 0x000
  const PartM0: PartNumber := 0xc20
  const PartM0Plus: PartNumber := 0xc60
  const PartM1: PartNumber := 0xc21
  const PartM3: PartNumber := 0xc23
  const PartM4: PartNumber := 0xc24
  const PartM7: PartNumber := 0xc27

  /** The six part numbers that have a name. */
  const KnownParts: set<PartNumber> := {PartM0, PartM0Plus, PartM1, PartM3, PartM4, PartM7}

  /** The names `String` gives the known parts. */
  const KnownNames: set<string> :=
    {"ARM Cortex-M0", "ARM Cortex-M0+", "ARM Cortex-M1", "ARM Cortex-M3", "ARM Cortex-M4", "ARM Cortex-M7"}

  /** The seven part-number constants are pairwise distinct. */
  lemma PartNumbersDistinct()
    ensures |KnownParts| == 6 && PartUnknown !in KnownParts
  {
  }

  /** The PARTNO field, bits [15:4] of the CPUID register. */
  function PartNumberOf(cpuid: bv32): (p: PartNumber)
    ensures p <= 0xfff
    ensures (p as bv32) << 4 == cpuid & 0xfff0
  {
    ((cpuid >> 4) & 0xfff) as bv16
  }

  /** The Go constant name of a part number (ConstString). */
  function ConstName(p: PartNumber): (s: string)
    ensures s == "CortexMPartNumberUnknown" <==> p !in KnownParts
  {
    if p == PartM0 then "CortexMPartNumberM0"
    else if p == PartM0Plus then "CortexMPartNumberM0Plus"
    else if p == PartM1 then "CortexMPartNumberM1"
    else if p == PartM3 then "CortexMPartNumberM3"
    else if p == PartM4 then "CortexMPartNumberM4"
    else if p == PartM7 then "CortexMPartNumberM7"
    else "CortexMPartNumberUnknown"
  }

  /** The display name of a part number (String). */
  function PartName(p: PartNumber): (s: string)
    ensures p in KnownParts <==> s in KnownNames
    ensures p !in KnownParts <==> s == "unknown"
  {
    if p == PartM0 then "ARM Cortex-M0"
    else if p == PartM0Plus then "ARM Cortex-M0+"
    else if p == PartM1 then "ARM Cortex-M1"
    else if p == PartM3 then "ARM Cortex-M3"
    else if p == PartM4 then "ARM Cortex-M4"
    else if p == PartM7 then "ARM Cortex-M7"
    else "unknown"
  }

  /** Parses a display name back into a part number (CortexMStringToPartNumber). */
  function PartNumberFromName(s: string): (p: PartNumber)
    ensures p == PartUnknown <==> s !in KnownNames
    ensures p in KnownParts <==> s in KnownNames
  {
    match s
    case "ARM Cortex-M0" => PartM0
    case "ARM Cortex-M0+" => PartM0Plus
    case "ARM Cortex-M1" => PartM1
    case "ARM Cortex-M3" => PartM3
    case "ARM Cortex-M4" => PartM4
    case "ARM Cortex-M7" => PartM7
    case _ => PartUnknown
  }

  /** Naming a part and parsing the name gives the part back for the six known parts,
      and Unknown for every other value. */
  lemma NameRoundTrip(p: PartNumber)
    ensures PartNumberFromName(PartName(p)) == (if p in KnownParts then p else PartUnknown)
  {
  }

  /** Parsing a name and naming the result gives the name back exactly when it is a known name. */
  lemma ParseRoundTrip(s: string)
    ensures PartName(PartNumberFromName(s)) == (if s in KnownNames then s else "unknown")
  {
  }
}

=== FILE: debug_regs.dfy ===
/** Debug-register constants of the Cortex-M core (device_debug_stm32.go), the probe's core
    status codes, its SWD clock-speed divisors and the two unimplemented queries (device_debug.go). */
module DebugRegs {
  import opened Base

  // Register addresses: Application Interrupt and Reset Control (ARMv7-M ARM B3.2.6),
  // Debug Halting Control and Status (C1.6.2), Debug Exception and Monitor Control (C1.6.5).
  const AIRCRReg: bv32 := 0xe000ed0c
  const DHCSRReg: bv32 := 0xe000edf0
  const DEMCRReg: bv32 := 0xe000edfc

  const AIRCRKey: bv32 := 0x05fa0000
  const AIRCRSysResetReqBit: bv32 := 0x00000004
  const AIRCRSysResetReq: bv32 := AIRCRKey | AIRCRSysResetReqBit

  const DHCSRKey: bv32 := 0xa05f0000
  const DHCSRDebugEnBit: bv32 := 0x00000001
  const DHCSRHaltBit: bv32 := 0x00000002
  const DHCSRStepBit: bv32 := 0x00000004
  const DHCSRStatusHaltBit: bv32 := 0x00020000
  const DHCSRDebugDis: bv32 := DHCSRKey
  const DHCSRDebugEn: bv32 := DHCSRKey | DHCSRDebugEnBit
  const DHCSRHalt: bv32 := DHCSRKey | DHCSRDebugEnBit | DHCSRHaltBit
  const DHCSRStep: bv32 := DHCSRKey | DHCSRDebugEnBit | DHCSRStepBit

  const DEMCRRunAfterReset: bv32 := 0x00000000
  const DEMCRHaltAfterReset: bv32 := 0x00000001

  /** The key fields and the control bits do not overlap, so the composed words are the sums
      the architecture expects. */
  lemma RegisterWords()
    ensures DHCSRKey & (DHCSRDebugEnBit | DHCSRHaltBit | DHCSRStepBit) == 0
    ensures AIRCRKey & AIRCRSysResetReqBit == 0
    ensures AIRCRSysResetReq == 0x05fa0004
    ensures DHCSRDebugDis == 0xa05f0000 && DHCSRDebugEn == 0xa05f0001
    ensures DHCSRHalt == 0xa05f0003 && DHCSRStep == 0xa05f0005
  {
  }

  /** StlinkStatus is a uint8. */
  type StlinkStatus = bv8

  const StatusUnknown: StlinkStatus := 0xff
  const StatusCoreRunning: StlinkStatus := 0x80
  const StatusCoreHalted: StlinkStatus := 0x81

  lemma StatusCodesDistinct()
    ensures |{StatusUnknown, StatusCoreRunning, StatusCoreHalted}| == 3
  {
  }

  /** GetStatus: a stub that reports the Unknown status together with "not implemented". */
  function GetStatus(): (r: (StlinkStatus, Error))
    ensures r.1 == NotImplemented
    ensures r.0 == StatusUnknown && r.0 !in {StatusCoreRunning, StatusCoreHalted}
  {
    (StatusUnknown, NotImplemented)
  }

  /** StlinkClockSpeed is a uint16: the divisor the probe uses for a named SWD frequency. */
  type ClockSpeed = bv16

  /** The named frequencies (in kHz) and their divisors, fastest first. */
  const ClockSpeeds: seq<(nat, ClockSpeed)> := [
    (4000, 0), (1800, 1), (1200, 2), (950, 3), (480, 7), (240, 15),
    (125, 31), (100, 40), (50, 79), (25, 158), (15, 265), (5, 798)]

  const ClockSpeed5: ClockSpeed := 798

  /** The divisor strictly increases as the frequency falls, from 0 at 4000 kHz to 798 at 5 kHz. */
  lemma ClockSpeedsMonotonic()
    ensures ClockSpeeds[0] == (4000, 0) && ClockSpeeds[|ClockSpeeds| - 1] == (5, ClockSpeed5)
    ensures forall i :: 0 <= i < |ClockSpeeds| - 1 ==>
              ClockSpeeds[i].0 > ClockSpeeds[i + 1].0 && ClockSpeeds[i].1 < ClockSpeeds[i + 1].1
  {
  }

  /** GetClockSpeed: a stub that reports the 5 kHz divisor together with "not implemented". */
  function GetClockSpeed(): (r: (ClockSpeed, Error))
    ensures r.1 == NotImplemented
    ensures (5, r.0) in ClockSpeeds
  {
    (ClockSpeed5, NotImplemented)
  }
}

=== FILE: modes.dfy ===
/** Decoding of the probe's replies to the mode, version and target-voltage queries
    (the pure part of device_commands.go). */
module Modes {
  import opened Base
  import opened Wire

  /** StlinkMode is a uint8. */
  type StlinkMode = bv8

  const ModeUnknown: StlinkMode := 0xff
  const ModeDfu: StlinkMode := 0x00
  const ModeMass: StlinkMode := 0x01
  const ModeDebug: StlinkMode := 0x02

  /** StlinkMode.String. */
  function ModeName(m: StlinkMode): (s: string)
    ensures m == ModeDebug <==> s == "debug"
    ensures m == ModeDfu <==> s == "dfu"
    ensures m == ModeMass <==> s == "mass"
    ensures m !in {ModeDebug, ModeDfu, ModeMass} <==> s == "unknown"
  {
    if m == ModeDebug then "debug"
    else if m == ModeDfu then "dfu"
    else if m == ModeMass then "mass"
    else "unknown"
  }

  /** The mode a reply's first byte stands for; a byte outside the three known modes
      is the Unknown mode, never an error. */
  function DecodeMode(b: byte): (m: StlinkMode)
    ensures b in {ModeDfu, ModeMass, ModeDebug} ==> m == b
    ensures b !in {ModeDfu, ModeMass, ModeDebug} ==> m == ModeUnknown
  {
    if b == ModeDfu || b == ModeMass || b == ModeDebug then b else ModeUnknown
  }

  /** Decoding is idempotent on modes: a decoded mode decodes to itself. */
  lemma DecodeModeIdempotent(b: byte)
    ensures DecodeMode(DecodeMode(b)) == DecodeMode(b)
  {
  }

  /** The three version fields the probe packs into the first two bytes of its version reply. */
  datatype Version = Version(stlink: bv8, jtag: bv8, swim: bv8)

  /** Unpacks the probe, JTAG and SWIM versions: 4, 6 and 6 bits of rx0:rx1. */
  function DecodeVersion(rx0: byte, rx1: byte): (v: Version)
    ensures v.stlink <= 15 && v.jtag <= 63 && v.swim <= 63
    // No bit is lost or invented: packing the fields again gives back the two bytes.
    ensures (v.stlink as bv16 << 12) | (v.jtag as bv16 << 6) | (v.swim as bv16)
            == (rx0 as bv16 << 8) | (rx1 as bv16)
  {
    Version((rx0 & 0xf0) >> 4, ((rx0 & 0x0f) << 2) | ((rx1 & 0xc0) >> 6), rx1 & 0x3f)
  }

  /** Different first two bytes give different versions. */
  lemma DecodeVersionInjective(a0: byte, a1: byte, b0: byte, b1: byte)
    requires DecodeVersion(a0, a1) == DecodeVersion(b0, b1)
    ensures a0 == b0 && a1 == b1
  {
    var v := DecodeVersion(a0, a1);
    assert a0 == (v.stlink << 4) | (v.jtag >> 2) && a1 == ((v.jtag & 3) << 6) | v.swim;
    assert b0 == (v.stlink << 4) | (v.jtag >> 2) && b1 == ((v.jtag & 3) << 6) | v.swim;
  }

  /** The two signed samples of the target-voltage reply: the reference and the measured value. */
  datatype VoltageSamples = VoltageSamples(reference: int, measured: int)

  /** Reads the two little-endian int32 samples and refuses a zero reference, whatever the
      measured sample is. The volt value 2.4 * measured / reference is not computed here. */
  function DecodeVoltage(rx: seq<byte>): (r: Result<VoltageSamples>)
    requires |rx| == 8
    ensures r.Err? <==> rx[..4] == [0, 0, 0, 0]
    ensures r.Err? ==> r.error == MeasuredVoltageZero
    ensures r.Ok? ==> r.value.reference != 0
                      && r.value.reference == Int32(Le32(rx[..4]))
                      && r.value.measured == Int32(Le32(rx[4..]))
  {
    var v0 := Int32(Le32(rx[..4]));
    var v1 := Int32(Le32(rx[4..]));
    if v0 == 0 then Err(MeasuredVoltageZero) else Ok(VoltageSamples(v0, v1))
  }
}

=== FILE: protocol.dfy ===
/** What each call of a session does to the transcript and what it returns, as functions of the
    probe (`Port`/`Link`), the transcript before the call and, for the identification chain, the
    cached CPUID word. The methods of `Session.Device` are proved to behave as these say. */
module Protocol {
  import opened Base
  import opened Commands
  import opened Wire
  import opened Modes
  import opened CortexM
  import opened ChipFamilies
  import opened DebugRegs
  import opened Transport

  // ---- device_commands.go ----

  /** Mode: [0xf5, 0, ...] out, two bytes back, the first decoded; Unknown beside any error. */
  function QueryMode(p: Port, log: seq<Event>): (r: Outcome<StlinkMode>)
    ensures var x := Exchange(p, log, Frame(CmdGetCurrentMode, 0), 2); r.log == x.log && r.err == x.err
    ensures var f := Frame(CmdGetCurrentMode, 0);
            r.log == log || r.log == log + [Sent(p.outEp, f)]
            || r.log == log + [Sent(p.outEp, f), Received(InEndpoint, 2)]
    ensures r.err.Some? ==> r.value == ModeUnknown
    ensures r.err.None? ==>
              r.log == log + [Sent(p.outEp, Frame(CmdGetCurrentMode, 0)), Received(InEndpoint, 2)]
              && r.value in {ModeDfu, ModeMass, ModeDebug, ModeUnknown}
              && (r.value == ModeUnknown <==> Fit(p.link(r.log).data, 2)[0] !in {ModeDfu, ModeMass, ModeDebug})
              && (r.value != ModeUnknown ==> r.value == Fit(p.link(r.log).data, 2)[0])
  {
    var x := Exchange(p, log, Frame(CmdGetCurrentMode, 0), 2);
    if x.err.Some? then Outcome(x.log, ModeUnknown, x.err)
    else Outcome(x.log, DecodeMode(x.value[0]), None)
  }

  /** Version: [0xf1, 0, ...] out, six bytes back, of which only the first two are decoded. */
  function QueryVersion(p: Port, log: seq<Event>): (r: Outcome<Option<Version>>)
    ensures var x := Exchange(p, log, Frame(CmdGetVersion, 0), 6); r.log == x.log && r.err == x.err
    ensures r.err.Some? <==> r.value.None?
    ensures r.err.None? ==>
              r.log == log + [Sent(p.outEp, Frame(CmdGetVersion, 0)), Received(InEndpoint, 6)]
              && var rx := Fit(p.link(r.log).data, 6);
                 r.value == Some(DecodeVersion(rx[0], rx[1]))
  {
    var x := Exchange(p, log, Frame(CmdGetVersion, 0), 6);
    if x.err.Some? then Outcome(x.log, None, x.err)
    else Outcome(x.log, Some(DecodeVersion(x.value[0], x.value[1])), None)
  }

  /** TargetVoltage: [0xf7, 0, ...] out, two little-endian int32 samples read back; a zero
      reference sample is an error whatever the measured one is. */
  function QueryVoltage(p: Port, log: seq<Event>): (r: Outcome<Option<VoltageSamples>>)
    ensures r.err.Some? <==> r.value.None?
    ensures r.err.None? ==> r.value.value.reference != 0
    ensures var x := ExchangeFull(p, log, Frame(CmdGetTargetVoltage, 0), 8);
            r.log == x.log
            && (x.err.Some? ==> r.err == x.err)
            && (x.err.None? ==> (r.err == Some(MeasuredVoltageZero) <==> x.value[..4] == [0, 0, 0, 0]))
            && (x.err.None? && x.value[..4] != [0, 0, 0, 0] ==>
                  r.err.None? && r.value == Some(VoltageSamples(Int32(Le32(x.value[..4])), Int32(Le32(x.value[4..])))))
  {
    var x := ExchangeFull(p, log, Frame(CmdGetTargetVoltage, 0), 8);
    if x.err.Some? then Outcome(x.log, None, x.err)
    else match DecodeVoltage(x.value)
      case Ok(v) => Outcome(x.log, Some(v), None)
      case Err(e) => Outcome(x.log, None, Some(e))
  }

  // ---- device_idcodes.go and device_cortexm.go ----

  /** The CPUID register (ARMv7-M Architecture Reference Manual, section B3.2.3). */
  const CpuIdAddress: bv32 := 0xE000ED00
  /** The STM32 DBGMCU_IDCODE register, and its address on Cortex-M0/M0+ parts. */
  const IdCodeAddressDefault: bv32 := 0xE0042000
  const IdCodeAddressM0: bv32 := 0x40015800

  /** CoreID: [0xf2, 0x22, 0, ...] out, then the little-endian word of the next four bytes;
      0 beside any error. */
  function QueryCoreId(p: Port, log: seq<Event>): (r: Outcome<bv32>)
    ensures var x := ExchangeFull(p, log, Frame(CmdDebug, CmdDebugReadCoreid), 4); r.log == x.log && r.err == x.err
    ensures r.err.Some? ==> r.value == 0
    ensures !p.isOpened ==> r == Outcome(log, 0, Some(DeviceClosed))
    ensures p.isOpened ==> log + [Sent(p.outEp, Frame(CmdDebug, CmdDebugReadCoreid))] <= r.log
    ensures var sent := log + [Sent(p.outEp, Frame(CmdDebug, CmdDebugReadCoreid))];
            p.isOpened && p.link(sent).failure.Some? ==> r == Outcome(sent, 0, p.link(sent).failure)
    ensures var got := log + [Sent(p.outEp, Frame(CmdDebug, CmdDebugReadCoreid)), Received(InEndpoint, 4)];
            r.log == got ==> (r.err.None? <==> |p.link(got).data| >= 4)
    ensures r.err.None? ==>
              r.log == log + [Sent(p.outEp, Frame(CmdDebug, CmdDebugReadCoreid)), Received(InEndpoint, 4)]
              && |p.link(r.log).data| >= 4 && r.value == Le32(p.link(r.log).data[..4])
  {
    var x := ExchangeFull(p, log, Frame(CmdDebug, CmdDebugReadCoreid), 4);
    if x.err.Some? then Outcome(x.log, 0, x.err) else Outcome(x.log, Le32(x.value), None)
  }

  /** CortexMPartNumber: a non-zero cached CPUID is used without a read; otherwise CPUID is read
      once, and a failed read gives Unknown with its error. */
  function LookupPart(link: Link, cache: bv32, log: seq<Event>): (r: Outcome<PartNumber>)
    ensures r.value <= 0xfff
    ensures cache != 0 ==> r == Outcome(log, PartNumberOf(cache), None)
    ensures cache == 0 ==> r.log == log + [Read32Op(CpuIdAddress)] && r.err == link(r.log).failure
    ensures cache == 0 && r.err.None? ==> r.value == PartNumberOf(link(r.log).word)
    ensures r.err.Some? ==> r.value == PartUnknown
  {
    if cache != 0 then Outcome(log, PartNumberOf(cache), None)
    else
      var l := log + [Read32Op(CpuIdAddress)];
      if link(l).failure.Some? then Outcome(l, PartUnknown, link(l).failure)
      else Outcome(l, PartNumberOf(link(l).word), None)
  }

  /** The cached CPUID after a part-number lookup: only a successful read replaces it, so a
      successful read of 0 leaves the cache empty and the next lookup reads again. */
  function CachedCpuId(link: Link, cache: bv32, log: seq<Event>): (c: bv32)
    ensures cache != 0 ==> c == cache
    ensures c != cache ==> cache == 0 && link(log + [Read32Op(CpuIdAddress)]).failure.None?
    ensures cache == 0 && link(log + [Read32Op(CpuIdAddress)]).failure.None? ==>
              c == link(log + [Read32Op(CpuIdAddress)]).word
  {
    if cache != 0 then cache
    else
      var a := link(log + [Read32Op(CpuIdAddress)]);
      if a.failure.None? then a.word else cache
  }

  /** A CPUID read that succeeds with 0 leaves the cache empty, so the next lookup reads the
      register again; a failed read leaves it as it was. */
  lemma ZeroCpuIdIsReadAgain(link: Link, log: seq<Event>)
    ensures var l := log + [Read32Op(CpuIdAddress)];
            link(l).failure.Some? || link(l).word == 0 ==>
              CachedCpuId(link, 0, log) == 0
              && LookupPart(link, CachedCpuId(link, 0, log), l).log == l + [Read32Op(CpuIdAddress)]
  {
  }

  /** Where ChipID reads the IDCODE: the M0 address for Cortex-M0 and M0+ parts, the default
      address for every other part number, Unknown included. */
  function IdCodeAddress(pn: PartNumber): (a: bv32)
    ensures a == IdCodeAddressM0 <==> pn == PartM0 || pn == PartM0Plus
    ensures a == IdCodeAddressDefault <==> pn != PartM0 && pn != PartM0Plus
  {
    if pn == PartM0 || pn == PartM0Plus then IdCodeAddressM0 else IdCodeAddressDefault
  }

  /** ChipID: the part-number lookup, then one IDCODE read; a lookup error is returned with 0
      and no IDCODE read. */
  function QueryChipId(link: Link, cache: bv32, log: seq<Event>): (r: Outcome<bv32>)
    ensures var pl := LookupPart(link, cache, log);
            (pl.err.Some? ==> r == Outcome(pl.log, 0, pl.err))
            && (pl.err.None? ==> r.log == pl.log + [Read32Op(IdCodeAddress(pl.value))]
                                 && r.value == link(r.log).word && r.err == link(r.log).failure)
  {
    var pl := LookupPart(link, cache, log);
    if pl.err.Some? then Outcome(pl.log, 0, pl.err)
    else
      var l := pl.log + [Read32Op(IdCodeAddress(pl.value))];
      Outcome(l, link(l).word, link(l).failure)
  }

  /** DevID: the low 12 bits of ChipID's value, returned beside ChipID's error. */
  function QueryDevId(link: Link, cache: bv32, log: seq<Event>): (r: Outcome<ChipFamily>)
    ensures r.value <= 0xfff
    ensures var c := QueryChipId(link, cache, log);
            r.log == c.log && r.err == c.err && r.value as bv32 == c.value & 0xfff
  {
    var c := QueryChipId(link, cache, log);
    Outcome(c.log, FamilyOf(c.value), c.err)
  }

  /** FlashSize: a DevID error is returned before any read; a family outside the tables is
      "unknown core" without a read; every other family reads 16 bits at its group's register. */
  function QueryFlashSize(link: Link, cache: bv32, log: seq<Event>): (r: Outcome<bv16>)
    ensures var d := QueryDevId(link, cache, log);
            (d.err.Some? ==> r == Outcome(d.log, 0, d.err))
            && (d.err.None? ==> (r.log == d.log <==> Group(d.value) == GroupUnknown))
            && (d.err.None? && Group(d.value) == GroupUnknown ==> r == Outcome(d.log, 0, Some(UnknownCore)))
            && (d.err.None? && Group(d.value) != GroupUnknown ==>
                  r.log == d.log + [Read16Op(FlashSizeRegister(d.value).value)]
                  && r.value == (link(r.log).word & 0xffff) as bv16 && r.err == link(r.log).failure)
  {
    var d := QueryDevId(link, cache, log);
    if d.err.Some? then Outcome(d.log, 0, d.err)
    else match FlashSizeRegister(d.value)
      case None => Outcome(d.log, 0, Some(UnknownCore))
      case Some(a) =>
        var l := d.log + [Read16Op(a)];
        Outcome(l, (link(l).word & 0xffff) as bv16, link(l).failure)
  }

  // ---- device_debug_stm32.go ----

  /** CoreResetHalt's requests in order: halt the core with debug enabled (DHCSR, section C1.6.2
      of the ARMv7-M Architecture Reference Manual), catch the reset vector (DEMCR, C1.6.5),
      request a system reset (AIRCR, B3.2.6), then read AIRCR back. */
  const ResetHaltSequence: seq<Event> := [
    Write32Op(DHCSRReg, DHCSRHalt),
    Write32Op(DEMCRReg, DEMCRHaltAfterReset),
    Write32Op(AIRCRReg, AIRCRSysResetReq),
    Read32Op(AIRCRReg)]

  lemma ResetHaltSequenceValues()
    ensures ResetHaltSequence == [
      Write32Op(0xe000edf0, 0xa05f0003), Write32Op(0xe000edfc, 1),
      Write32Op(0xe000ed0c, 0x05fa0004), Read32Op(0xe000ed0c)]
  {
    RegisterWords();
  }

  // ---- device.go ----

  /** A mode query only sends and receives. */
  lemma QueryModeRequests(p: Port, log: seq<Event>)
    ensures var m := QueryMode(p, log);
            log <= m.log
            && ExitDfuOp !in m.log[|log|..] && EnterSwdOp !in m.log[|log|..] && StatusOp !in m.log[|log|..]
  {
    var m := QueryMode(p, log);
    var f := Frame(CmdGetCurrentMode, 0);
    assert m.log[|log|..] == [] || m.log[|log|..] == [Sent(p.outEp, f)]
           || m.log[|log|..] == [Sent(p.outEp, f), Received(InEndpoint, 2)];
  }

  /** The end of init once the re-query answered `mode`: SWD is entered unless the probe is in
      debug mode, and a failed entry ends init with its error and no status request; otherwise
      the status request comes last and its error is init's. */
  function SwdThenStatus(p: Port, log: seq<Event>, mode: StlinkMode): (r: Outcome<()>)
    ensures mode == ModeDebug ==> r == Outcome(log + [StatusOp], (), p.link(log + [StatusOp]).failure)
    ensures mode != ModeDebug && p.link(log + [EnterSwdOp]).failure.Some? ==>
              r == Outcome(log + [EnterSwdOp], (), p.link(log + [EnterSwdOp]).failure)
    ensures mode != ModeDebug && p.link(log + [EnterSwdOp]).failure.None? ==>
              r == Outcome(log + [EnterSwdOp, StatusOp], (), p.link(log + [EnterSwdOp, StatusOp]).failure)
    ensures log <= r.log && ExitDfuOp !in r.log[|log|..]
    ensures EnterSwdOp in r.log[|log|..] <==> mode != ModeDebug
    ensures StatusOp in r.log[|log|..] ==> r.log[|r.log| - 1] == StatusOp && r.err == p.link(r.log).failure
  {
    var l := if mode != ModeDebug then log + [EnterSwdOp] else log;
    if mode != ModeDebug && p.link(l).failure.Some? then Outcome(l, (), p.link(l).failure)
    else
      assert l + [StatusOp] == if mode != ModeDebug then log + [EnterSwdOp, StatusOp] else log + [StatusOp];
      Outcome(l + [StatusOp], (), p.link(l + [StatusOp]).failure)
  }

  /** The last part of init: query the mode again, then SwdThenStatus, stopping at the first
      error. */
  function EnterDebug(p: Port, log: seq<Event>): (r: Outcome<()>)
    ensures log <= r.log && ExitDfuOp !in r.log[|log|..]
    ensures var m := QueryMode(p, log);
            m.log <= r.log
            && (m.err.Some? ==> r == Outcome(m.log, (), m.err))
            && (m.err.None? ==> r == SwdThenStatus(p, m.log, m.value))
  {
    var m := QueryMode(p, log);
    QueryModeRequests(p, log);
    if m.err.Some? then Outcome(m.log, (), m.err)
    else
      var r := SwdThenStatus(p, m.log, m.value);
      assert r.log[|log|..] == m.log[|log|..] + r.log[|m.log|..];
      r
  }

  /** What EnterDebug adds to the transcript: SWD entry exactly when the re-query succeeded with
      a mode other than debug, and a status request only as the last request, whose error is
      EnterDebug's. */
  lemma EnterDebugRequests(p: Port, log: seq<Event>)
    ensures var r := EnterDebug(p, log);
            var m := QueryMode(p, log);
            (EnterSwdOp in r.log[|log|..] <==> m.err.None? && m.value != ModeDebug)
            && (StatusOp in r.log[|log|..] ==> r.log[|r.log| - 1] == StatusOp && r.err == p.link(r.log).failure)
  {
    var m := QueryMode(p, log);
    QueryModeRequests(p, log);
    var r := EnterDebug(p, log);
    assert r.log[|log|..] == m.log[|log|..] + r.log[|m.log|..];
  }

  /** The middle part of init, once the first mode query has answered `mode`: DFU is left only
      when the probe is in it, and a failed exit ends init at once with no error, which is how
      the source behaves; otherwise EnterDebug follows. */
  function LeaveDfu(p: Port, log: seq<Event>, mode: StlinkMode): (r: Outcome<()>)
    ensures log <= r.log
    ensures mode == ModeDfu <==> ExitDfuOp in r.log[|log|..]
    ensures mode == ModeDfu && p.link(log + [ExitDfuOp]).failure.Some? ==>
              r == Outcome(log + [ExitDfuOp], (), None)
    ensures mode == ModeDfu && p.link(log + [ExitDfuOp]).failure.None? ==>
              r == EnterDebug(p, log + [ExitDfuOp])
    ensures mode != ModeDfu ==> r == EnterDebug(p, log)
  {
    if mode == ModeDfu then
      var x := log + [ExitDfuOp];
      if p.link(x).failure.Some? then
        assert x[|log|..] == [ExitDfuOp];
        Outcome(x, (), None)
      else
        var d := EnterDebug(p, x);
        assert d.log[|log|] == ExitDfuOp;
        d
    else
      EnterDebug(p, log)
  }

  /** init: claim the interface and endpoints, query the mode, then LeaveDfu. The value is
      whether the endpoints were claimed; an error after the claim leaves them claimed. */
  function InitSequence(p: Port, log: seq<Event>): (r: Outcome<bool>)
    ensures log + [Claimed(p.outEp)] <= r.log
    ensures r.value <==> p.link(log + [Claimed(p.outEp)]).failure.None?
    ensures !r.value ==> r == Outcome(log + [Claimed(p.outEp)], false, p.link(log + [Claimed(p.outEp)]).failure)
    ensures r.err.None? ==> r.value
    ensures var m := QueryMode(p, log + [Claimed(p.outEp)]);
            r.value ==>
              (m.err.Some? ==> r == Outcome(m.log, true, m.err))
              && (m.err.None? ==> var d := LeaveDfu(p, m.log, m.value); r == Outcome(d.log, true, d.err))
  {
    var c := log + [Claimed(p.outEp)];
    if p.link(c).failure.Some? then Outcome(c, false, p.link(c).failure)
    else
      var m := QueryMode(p, c);
      if m.err.Some? then Outcome(m.log, true, m.err)
      else
        var d := LeaveDfu(p, m.log, m.value);
        Outcome(d.log, true, d.err)
  }
}

=== FILE: registry.dfy ===
/** Finding probes on the bus (stlink.go): the vendor/product filter, the listing of probes with
    normalised serial numbers, and opening the first probe whose serial matches. */
module Registry {
  import opened Base
  import opened Serial
  import opened Transport
  import opened Protocol
  import opened Session

  /** A USB device as enumeration reports it: its bus address, its ids and the outcome of
      reading its serial-number string descriptor (index 3). */
  datatype UsbDevice = UsbDevice(address: nat, vendor: bv16, product: bv16, serial: Result<seq<byte>>)

  /** The probeAll filter: ST's vendor id with a V2-1 or V2 product id. V1 probes are not
      accepted, although Name knows them. */
  predicate Accept(d: UsbDevice)
  {
    d.vendor == StVendor && (d.product == StlinkV21Product || d.product == StlinkV2Product)
  }

  /** probeAll: the accepted devices, in bus order. */
  function ProbeAll(bus: seq<UsbDevice>): (devs: seq<UsbDevice>)
    ensures |devs| <= |bus|
    ensures forall d :: d in devs <==> d in bus && Accept(d)
    ensures (forall i :: 0 <= i < |bus| ==> Accept(bus[i])) ==> devs == bus
  {
    if bus == [] then []
    else if Accept(bus[0]) then [bus[0]] + ProbeAll(bus[1..])
    else ProbeAll(bus[1..])
  }

  /** Every accepted device is kept as often as it occurs on the bus; no other is kept. */
  lemma {:induction false} ProbeAllCount(bus: seq<UsbDevice>, d: UsbDevice)
    ensures multiset(ProbeAll(bus))[d] == if Accept(d) then multiset(bus)[d] else 0
  {
    if bus != [] {
      assert bus == [bus[0]] + bus[1..];
      ProbeAllCount(bus[1..], d);
    }
  }

  /** The filter keeps enumeration order: filtering two parts of the bus and joining them is
      filtering the whole. */
  lemma {:induction false} ProbeAllAppend(a: seq<UsbDevice>, b: seq<UsbDevice>)
    ensures ProbeAll(a + b) == ProbeAll(a) + ProbeAll(b)
  {
    if a != [] {
      assert (a + b)[1..] == a[1..] + b;
      ProbeAllAppend(a[1..], b);
    } else {
      assert a + b == b;
    }
  }

  /** The serial number a probe is listed and matched under. */
  function SerialOf(d: UsbDevice): (s: seq<byte>)
    requires d.serial.Ok?
    ensures IsHex(s)
  {
    Normalize(d.serial.value)
  }

  /** A Device value as Probe returns it: never opened, so it can be listed but not used. */
  datatype DeviceInfo = DeviceInfo(product: bv16, serialNumber: seq<byte>, isOpened: bool)

  /** Every device gave its serial-number descriptor. */
  predicate Readable(devs: seq<UsbDevice>)
  {
    forall i :: 0 <= i < |devs| ==> devs[i].serial.Ok?
  }

  /** The entry Probe lists for a probe with a readable serial. */
  function Entry(d: UsbDevice): (e: DeviceInfo)
    requires d.serial.Ok?
    ensures !e.isOpened && IsHex(e.serialNumber)
  {
    DeviceInfo(d.product, SerialOf(d), false)
  }

  /** Device i is the first whose serial-number descriptor failed, with error e. */
  ghost predicate FirstFailure(devs: seq<UsbDevice>, i: int, e: Error)
  {
    0 <= i < |devs| && devs[i].serial == Err(e) && forall j :: 0 <= j < i ==> devs[j].serial.Ok?
  }

  /** Probe: one unopened entry per accepted probe, in enumeration order; an enumeration error or
      the first descriptor error aborts with no list. */
  method Probe(bus: Result<seq<UsbDevice>>) returns (r: Result<seq<DeviceInfo>>)
    ensures bus.Err? ==> r == Err(bus.error)
    ensures bus.Ok? ==> (r.Ok? <==> Readable(ProbeAll(bus.value)))
    ensures bus.Ok? && r.Ok? ==>
              var devs := ProbeAll(bus.value);
              |r.value| == |devs| && forall i :: 0 <= i < |devs| ==> r.value[i] == Entry(devs[i])
    ensures bus.Ok? && r.Err? ==> exists i :: FirstFailure(ProbeAll(bus.value), i, r.error)
  {
    if bus.Err? {
      return Err(bus.error);
    }
    var devs := ProbeAll(bus.value);
    var list: seq<DeviceInfo> := [];
    var i := 0;
    while i < |devs|
      invariant 0 <= i <= |devs| && |list| == i
      invariant forall j :: 0 <= j < i ==> devs[j].serial.Ok?
      invariant forall j :: 0 <= j < i ==> list[j] == Entry(devs[j])
    {
      var d := devs[i];
      if d.serial.Err? {
        assert FirstFailure(devs, i, d.serial.error);
        assert !Readable(devs) by { assert !devs[i].serial.Ok?; }
        return Err(d.serial.error);
      }
      list := list + [Entry(d)];
      i := i + 1;
    }
    return Ok(list);
  }

  /** The selection rule of OpenDevice: the normalised serial equals the one asked for, or
      none was asked for. */
  predicate Selects(serial: seq<byte>, d: UsbDevice)
    requires d.serial.Ok?
  {
    SerialOf(d) == serial || serial == []
  }

  /** Where the scan of OpenDevice stops. */
  datatype Selection = DescriptorError(at: nat, error: Error) | Match(at: nat) | NoMatch

  /** Every device before k has a readable serial that is not selected. */
  ghost predicate Passed(devs: seq<UsbDevice>, serial: seq<byte>, k: nat)
    requires k <= |devs|
  {
    forall j :: 0 <= j < k ==> devs[j].serial.Ok? && !Selects(serial, devs[j])
  }

  /** Passing a first device that is readable and not selected shifts Passed by one. */
  lemma PassedCons(devs: seq<UsbDevice>, serial: seq<byte>)
    requires devs != [] && devs[0].serial.Ok? && !Selects(serial, devs[0])
    ensures forall k :: 0 <= k < |devs| ==> (Passed(devs[1..], serial, k) <==> Passed(devs, serial, k + 1))
  {
    forall k | 0 <= k < |devs|
      ensures Passed(devs[1..], serial, k) <==> Passed(devs, serial, k + 1)
    {
      if Passed(devs[1..], serial, k) {
        forall j | 0 <= j < k + 1
          ensures devs[j].serial.Ok? && !Selects(serial, devs[j])
        {
          if j > 0 { assert devs[j] == devs[1..][j - 1]; }
        }
      }
    }
  }

  /** The first device that either fails to give its serial or is selected. */
  function FirstMatch(devs: seq<UsbDevice>, serial: seq<byte>): (s: Selection)
    ensures s.DescriptorError? ==> s.at < |devs| && devs[s.at].serial == Err(s.error) && Passed(devs, serial, s.at)
    ensures s.Match? ==> s.at < |devs| && devs[s.at].serial.Ok? && Selects(serial, devs[s.at])
                         && Passed(devs, serial, s.at)
    ensures s.NoMatch? <==> Passed(devs, serial, |devs|)
    ensures serial == [] && devs != [] && devs[0].serial.Ok? ==> s == Match(0)
  {
    if devs == [] then NoMatch
    else if devs[0].serial.Err? then DescriptorError(0, devs[0].serial.error)
    else if Selects(serial, devs[0]) then Match(0)
    else
      PassedCons(devs, serial);
      match FirstMatch(devs[1..], serial)
      case DescriptorError(k, e) => DescriptorError(k + 1, e)
      case Match(k) => Match(k + 1)
      case NoMatch => NoMatch
  }

  /** A session that was opened and then closed: its last request released the handles. */
  ghost predicate Retired(c: Device)
    reads c
  {
    c.isOpened && c.log != [] && c.log[|c.log| - 1] == Released
  }

  /** The j-th closed session belongs to the j-th accepted probe. */
  ghost predicate Tracks(closed: seq<Device>, devs: seq<UsbDevice>, links: nat -> Link)
  {
    |closed| <= |devs|
    && forall j :: 0 <= j < |closed| ==>
         closed[j].product == devs[j].product && closed[j].link == links(devs[j].address)
  }

  /** Where the scan stops determines FirstMatch: past the end, at a failed descriptor, or at a
      selected device, with every device before it passed. */
  lemma FirstMatchAt(devs: seq<UsbDevice>, serial: seq<byte>, i: nat)
    requires i <= |devs| && Passed(devs, serial, i)
    requires i < |devs| ==> devs[i].serial.Err? || Selects(serial, devs[i])
    ensures i == |devs| ==> FirstMatch(devs, serial) == NoMatch
    ensures i < |devs| && devs[i].serial.Err? ==> FirstMatch(devs, serial) == DescriptorError(i, devs[i].serial.error)
    ensures i < |devs| && devs[i].serial.Ok? ==> FirstMatch(devs, serial) == Match(i)
  {
  }

  /** A session for the next probe extends the correspondence by one. */
  lemma TracksNext(closed: seq<Device>, c: Device, devs: seq<UsbDevice>, links: nat -> Link)
    requires Tracks(closed, devs, links) && |closed| < |devs|
    requires c.product == devs[|closed|].product && c.link == links(devs[|closed|].address)
    ensures Tracks(closed + [c], devs, links)
  {
  }

  /** Opens a session on a probe that was not selected, and closes it again. */
  method Skip(d: UsbDevice, links: nat -> Link) returns (ghost c: Device)
    requires d.serial.Ok?
    ensures fresh(c) && Retired(c)
    ensures c.product == d.product && c.link == links(d.address) && c.serialNumber == SerialOf(d)
  {
    var s := new Device(d.product, SerialOf(d), true, links(d.address));
    var e := s.Close();
    c := s;
  }

  /** The init run OpenDevice makes on probe d: a fresh opened session over its link. */
  function InitOf(d: UsbDevice, links: nat -> Link): Outcome<bool>
  {
    InitSequence(Port(links(d.address), true, OutEndpoint(d.product)), [])
  }

  /** dev is the session init made of probe d: its product, link and normalised serial, opened,
      claimed, with no cached CPUID and init's transcript. */
  ghost predicate Initialised(dev: Device, d: UsbDevice, links: nat -> Link)
    requires d.serial.Ok?
    reads dev
  {
    dev.product == d.product && dev.link == links(d.address) && dev.serialNumber == SerialOf(d)
    && dev.isOpened && dev.Valid() && dev.cpuID == 0 && dev.log == InitOf(d, links).log
  }

  /** Opens a session on the selected probe and initialises it; closes it if init fails. */
  method Attach(d: UsbDevice, links: nat -> Link) returns (dev: Device?, err: Option<Error>, ghost closed: seq<Device>)
    requires d.serial.Ok?
    ensures forall c :: c in closed ==> fresh(c) && Retired(c)
    ensures var init := InitOf(d, links);
            (init.err.Some? ==> dev == null && err == init.err && |closed| == 1
                                && closed[0].product == d.product && closed[0].link == links(d.address))
            && (init.err.None? ==> dev != null && fresh(dev) && err.None? && closed == []
                                   && Initialised(dev, d, links))
  {
    var s := new Device(d.product, SerialOf(d), true, links(d.address));
    ghost var init := InitOf(d, links);
    assert s.Io() == Port(links(d.address), true, OutEndpoint(d.product));
    err := s.Init();
    assert s.log == init.log && err == init.err;
    if err.Some? {
      var e := s.Close();
      return null, err, [s];
    }
    return s, None, [];
  }

  /** The scan of OpenDevice up to its first failed descriptor or selected probe: every probe
      passed on the way is opened and closed again. */
  method SkipUnselected(devs: seq<UsbDevice>, serial: seq<byte>, links: nat -> Link)
    returns (i: nat, ghost closed: seq<Device>)
    ensures i <= |devs| && Passed(devs, serial, i)
    ensures i < |devs| ==> devs[i].serial.Err? || Selects(serial, devs[i])
    ensures |closed| == i && Tracks(closed, devs, links)
    ensures forall c :: c in closed ==> Retired(c)
  {
    closed := [];
    i := 0;
    while i < |devs| && devs[i].serial.Ok? && !(SerialOf(devs[i]) == serial || serial == [])
      invariant i <= |devs| && |closed| == i && Passed(devs, serial, i)
      invariant Tracks(closed, devs, links)
      invariant forall c :: c in closed ==> Retired(c)
    {
      var c := Skip(devs[i], links);
      TracksNext(closed, c, devs, links);
      closed := closed + [c];
      i := i + 1;
    }
  }

  /** OpenDevice. Each accepted probe in turn is opened; one that is not selected is closed and
      skipped, the selected one is initialised and returned, or closed with init's error. The
      ghost `closed` lists the sessions closed on the way. */
  method OpenDevice(serial: seq<byte>, bus: Result<seq<UsbDevice>>, links: nat -> Link)
    returns (dev: Device?, err: Option<Error>, ghost closed: seq<Device>)
    ensures bus.Err? ==> dev == null && err == Some(bus.error) && closed == []
    ensures forall c :: c in closed ==> Retired(c)
    ensures bus.Ok? ==>
              Tracks(closed, ProbeAll(bus.value), links)
    ensures bus.Ok? ==>
              var devs := ProbeAll(bus.value);
              match FirstMatch(devs, serial)
              case DescriptorError(k, e) => dev == null && err == Some(e) && |closed| == k
              case NoMatch => dev == null && err == Some(DeviceNotFound) && |closed| == |devs|
              case Match(k) =>
                var init := InitOf(devs[k], links);
                (init.err.Some? ==> dev == null && err == init.err && |closed| == k + 1)
                && (init.err.None? ==> dev != null && fresh(dev) && err.None? && |closed| == k
                                       && Initialised(dev, devs[k], links))
  {
    closed := [];
    if bus.Err? {
      return null, Some(bus.error), closed;
    }
    var devs := ProbeAll(bus.value);
    var i: nat;
    i, closed := SkipUnselected(devs, serial, links);
    FirstMatchAt(devs, serial, i);
    if i == |devs| {
      return null, Some(DeviceNotFound), closed;
    }
    var d := devs[i];
    if d.serial.Err? {
      return null, Some(d.serial.error), closed;
    }
    ghost var more;
    dev, err, more := Attach(d, links);
    if more != [] {
      TracksNext(closed, more[0], devs, links);
      assert more == [more[0]];
    }
    closed := closed + more;
  }
}

=== FILE: serial.dfy ===
/** Serial-number normalisation: a serial that is valid Base16 text (RFC 4648 section 8) is kept,
    any other is replaced by the lower-case Base16 encoding of its bytes (stlink.go, Probe and
    OpenDevice). Go strings are byte sequences, so serials are modelled as bytes. */
module Serial {
  import opened Base

  /** The ASCII digits hex.DecodeString accepts: 0-9, a-f and A-F. */
  predicate IsHexDigit(c: byte)
  {
    ('0' as bv8 <= c <= '9' as bv8) || ('a' as bv8 <= c <= 'f' as bv8) || ('A' as bv8 <= c <= 'F' as bv8)
  }

  /** hex.DecodeString succeeds: an even number of hex digits. */
  predicate IsHex(s: seq<byte>)
  {
    |s| % 2 == 0 && forall i :: 0 <= i < |s| ==> IsHexDigit(s[i])
  }

  /** A digit hex.EncodeToString writes: 0-9 or a-f. */
  predicate IsLowerHexDigit(c: byte)
  {
    IsHexDigit(c) && !('A' as bv8 <= c <= 'F' as bv8)
  }

  /** The lower-case hex digit of a nibble. */
  function HexDigit(n: bv8): (c: byte)
    requires n < 16
    ensures IsLowerHexDigit(c)
  {
    if n < 10 then '0' as bv8 + n else 'a' as bv8 + (n - 10)
  }

  /** hex.EncodeToString: two lower-case hex digits per byte, high nibble first. */
  function HexEncode(s: seq<byte>): (r: seq<byte>)
    ensures |r| == 2 * |s|
    ensures forall i :: 0 <= i < |r| ==> IsLowerHexDigit(r[i])
  {
    if s == [] then [] else ByteDigits(s[0]) + HexEncode(s[1..])
  }

  /** The two lower-case digits of one byte, high nibble first. */
  function ByteDigits(b: byte): (d: seq<byte>)
    ensures |d| == 2 && IsLowerHexDigit(d[0]) && IsLowerHexDigit(d[1])
  {
    [HexDigit(b >> 4), HexDigit(b & 0xf)]
  }

  /** The value of a hex digit (either case). */
  function HexValue(c: byte): (n: bv8)
    requires IsHexDigit(c)
    ensures n < 16
  {
    if c <= '9' as bv8 then c - '0' as bv8
    else if c >= 'a' as bv8 then c - 'a' as bv8 + 10
    else c - 'A' as bv8 + 10
  }

  /** hex.DecodeString on valid input: one byte per pair of digits. */
  function HexDecode(s: seq<byte>): (r: seq<byte>)
    requires IsHex(s)
    ensures 2 * |r| == |s|
  {
    if s == [] then [] else [PairValue(s[0], s[1])] + HexDecode(s[2..])
  }

  /** The byte two hex digits stand for. */
  function PairValue(hi: byte, lo: byte): byte
    requires IsHexDigit(hi) && IsHexDigit(lo)
  {
    (HexValue(hi) << 4) | HexValue(lo)
  }

  /** The two digits of a byte decode to that byte. */
  lemma ByteRoundTrip(b: byte)
    ensures PairValue(ByteDigits(b)[0], ByteDigits(b)[1]) == b
  {
  }

  /** Decoding undoes the encoding. */
  lemma {:induction false} HexRoundTrip(s: seq<byte>)
    ensures IsHex(HexEncode(s))
    ensures HexDecode(HexEncode(s)) == s
  {
    if s != [] {
      HexRoundTrip(s[1..]);
      var e := HexEncode(s);
      var d := ByteDigits(s[0]);
      assert e == d + HexEncode(s[1..]);
      assert e[0] == d[0] && e[1] == d[1] && e[2..] == HexEncode(s[1..]);
      ByteRoundTrip(s[0]);
    }
  }

  /** The serial number exposed for a raw string descriptor. */
  function Normalize(sd: seq<byte>): (r: seq<byte>)
    ensures IsHex(r)
    ensures IsHex(sd) ==> r == sd
    ensures !IsHex(sd) ==> |r| == 2 * |sd| && HexDecode(r) == sd
                           && forall i :: 0 <= i < |r| ==> IsLowerHexDigit(r[i])
  {
    if IsHex(sd) then sd else HexRoundTrip(sd); HexEncode(sd)
  }

  /** The normalised serial is always valid hex, so normalising again changes nothing. */
  lemma NormalizeIdempotent(sd: seq<byte>)
    ensures IsHex(Normalize(sd))
    ensures Normalize(Normalize(sd)) == Normalize(sd)
  {
    if !IsHex(sd) {
      HexRoundTrip(sd);
    }
  }
}

=== FILE: session.dfy ===
/** A session with one probe (device.go and the Device methods of device_commands.go,
    device_idcodes.go, device_cortexm.go, flashloader.go and device_debug_stm32.go). Every
    request goes through the transcript `log`, and the probe answers through `link`. */
module Session {
  import opened Base
  import opened Commands
  import opened Wire
  import opened Modes
  import opened CortexM
  import opened ChipFamilies
  import opened DebugRegs
  import opened Transport
  import opened Protocol

  /** USB ids of STMicroelectronics and of the three probe generations. */
  const StVendor: bv16 := 0x0483
  const StlinkV1Product: bv16 := 0x3744
  const StlinkV2Product: bv16 := 0x3748
  const StlinkV21Product: bv16 := 0x374b

  const OutEndpointV2: nat := 2
  const OutEndpointV21: nat := 1

  /** The out endpoint: 1 on a V2-1 probe, 2 on every other product. */
  function OutEndpoint(product: bv16): (ep: nat)
    ensures ep == OutEndpointV21 <==> product == StlinkV21Product
    ensures ep == OutEndpointV2 <==> product != StlinkV21Product
  {
    if product == StlinkV21Product then OutEndpointV21 else OutEndpointV2
  }

  /** Name: the three known products by name, anything else "unknown device". */
  function DeviceName(product: bv16): (r: Result<string>)
    ensures r.Err? <==> product !in {StlinkV21Product, StlinkV1Product, StlinkV2Product}
    ensures r.Err? ==> r.error == UnknownDevice
    ensures product == StlinkV21Product ==> r == Ok("ST-link V2-1")
    ensures product == StlinkV1Product ==> r == Ok("ST-link V1")
    ensures product == StlinkV2Product ==> r == Ok("ST-link V2")
  {
    if product == StlinkV21Product then Ok("ST-link V2-1")
    else if product == StlinkV1Product then Ok("ST-link V1")
    else if product == StlinkV2Product then Ok("ST-link V2")
    else Err(UnknownDevice)
  }

  class Device {
    /** desc.Product of the USB device. */
    const product: bv16
    /** The probe behind the USB handle. */
    const link: Link
    var serialNumber: seq<byte>
    /** Go's `opened`: set when OpenDevice creates the session, never changed afterwards. */
    var isOpened: bool
    /** The interface and both endpoints have been obtained (Go's interf, inEp and outEp). */
    var claimed: bool
    /** Go's coreState; no modelled operation changes it. */
    var coreState: StlinkStatus
    /** The cached CPUID word, 0 while unknown. */
    var cpuID: bv32
    /** Every request made so far. */
    var log: seq<Event>

    /** An opened session has its endpoints once init has claimed them; the driver never sends
        or receives on an opened session before that. */
    ghost predicate Valid()
      reads this
    {
      isOpened ==> claimed
    }

    /** The session as the protocol functions see it. */
    function Io(): Port
      reads this`isOpened
    {
      Port(link, isOpened, OutEndpoint(product))
    }

    constructor (product: bv16, serialNumber: seq<byte>, isOpened: bool, link: Link)
      ensures this.product == product && this.serialNumber == serialNumber
      ensures this.isOpened == isOpened && this.link == link
      ensures !claimed && coreState == 0 && cpuID == 0 && log == []
    {
      this.product := product;
      this.serialNumber := serialNumber;
      this.isOpened := isOpened;
      this.link := link;
      claimed := false;
      coreState := 0;
      cpuID := 0;
      log := [];
    }

    // ---- transport (device.go) ----

    /** write: "device closed" without touching the endpoint when not opened. */
    method Write(frame: seq<byte>) returns (err: Option<Error>)
      requires Valid()
      modifies this`log
      ensures !isOpened ==> log == old(log) && err == Some(DeviceClosed)
      ensures isOpened ==> log == old(log) + [Sent(OutEndpoint(product), frame)] && err == link(log).failure
    {
      if !isOpened {
        return Some(DeviceClosed);
      }
      log := log + [Sent(OutEndpoint(product), frame)];
      err := link(log).failure;
    }

    /** read(n): "device closed" when not opened, nil beside an error, else exactly n bytes. */
    method Read(n: nat) returns (rx: seq<byte>, err: Option<Error>)
      requires Valid()
      modifies this`log
      ensures !isOpened ==> log == old(log) && rx == [] && err == Some(DeviceClosed)
      ensures isOpened ==> log == old(log) + [Received(InEndpoint, n)] && err == link(log).failure
      ensures isOpened && err.Some? ==> rx == []
      ensures isOpened && err.None? ==> rx == Fit(link(log).data, n)
    {
      if !isOpened {
        return [], Some(DeviceClosed);
      }
      log := log + [Received(InEndpoint, n)];
      var a := link(log);
      if a.failure.Some? {
        return [], a.failure;
      }
      rx := Fit(a.data, n);
      err := None;
    }

    /** binary.Read on the in endpoint: no `opened` guard, and n bytes or an EOF error. */
    method ReadBinary(n: nat) returns (rx: seq<byte>, err: Option<Error>)
      requires claimed && n > 0
      modifies this`log
      ensures log == old(log) + [Received(InEndpoint, n)]
      ensures ReadFull(link(log), n).Ok? ==> rx == ReadFull(link(log), n).value && err.None?
      ensures ReadFull(link(log), n).Err? ==> rx == [] && err == Some(ReadFull(link(log), n).error)
    {
      log := log + [Received(InEndpoint, n)];
      match ReadFull(link(log), n)
      case Ok(v) => rx, err := v, None;
      case Err(e) => rx, err := [], Some(e);
    }

    // ---- operations whose bodies are not modelled: one request, the probe's answer ----

    method Read32(addr: bv32) returns (value: bv32, err: Option<Error>)
      modifies this`log
      ensures log == old(log) + [Read32Op(addr)] && value == link(log).word && err == link(log).failure
    {
      log := log + [Read32Op(addr)];
      value, err := link(log).word, link(log).failure;
    }

    method Write32(addr: bv32, value: bv32) returns (err: Option<Error>)
      modifies this`log
      ensures log == old(log) + [Write32Op(addr, value)] && err == link(log).failure
    {
      log := log + [Write32Op(addr, value)];
      err := link(log).failure;
    }

    method Read16(addr: bv32) returns (value: bv16, err: Option<Error>)
      modifies this`log
      ensures log == old(log) + [Read16Op(addr)]
      ensures value == (link(log).word & 0xffff) as bv16 && err == link(log).failure
    {
      log := log + [Read16Op(addr)];
      value, err := (link(log).word & 0xffff) as bv16, link(log).failure;
    }

    method Status() returns (status: StlinkStatus, err: Option<Error>)
      modifies this`log
      ensures log == old(log) + [StatusOp]
      ensures status == (link(log).word & 0xff) as bv8 && err == link(log).failure
    {
      log := log + [StatusOp];
      status, err := (link(log).word & 0xff) as bv8, link(log).failure;
    }

    method ExitDFUMode() returns (err: Option<Error>)
      modifies this`log
      ensures log == old(log) + [ExitDfuOp] && err == link(log).failure
    {
      log := log + [ExitDfuOp];
      err := link(log).failure;
    }

    method EnterSWDMode() returns (err: Option<Error>)
      modifies this`log
      ensures log == old(log) + [EnterSwdOp] && err == link(log).failure
    {
      log := log + [EnterSwdOp];
      err := link(log).failure;
    }

    // ---- queries (device_commands.go) ----

    /** A zero-filled command buffer with byte 0 and byte 1 set, as Go's make and two stores. */
    static method Command(cmd: byte, sub: byte) returns (tx: seq<byte>)
      ensures tx == Frame(cmd, sub)
    {
      var buf := new byte[CmdSize](_ => 0);
      buf[0] := cmd;
      buf[1] := sub;
      tx := buf[..];
      assert forall i :: 0 <= i < CmdSize ==> tx[i] == Frame(cmd, sub)[i];
    }

    method Mode() returns (m: StlinkMode, err: Option<Error>)
      requires Valid()
      modifies this`log
      ensures Outcome(log, m, err) == QueryMode(Io(), old(log))
    {
      var tx := Command(CmdGetCurrentMode, 0);
      err := Write(tx);
      if err.Some? {
        return ModeUnknown, err;
      }
      var rx;
      rx, err := Read(2);
      if err.Some? {
        return ModeUnknown, err;
      }
      m := DecodeMode(rx[0]);
    }

    /** Version; the value is the three fields Go renders as "V%dJ%dS%d", None where Go
        returns the empty string. */
    method Version() returns (v: Option<Version>, err: Option<Error>)
      requires Valid()
      modifies this`log
      ensures Outcome(log, v, err) == QueryVersion(Io(), old(log))
    {
      var tx := Command(CmdGetVersion, 0);
      err := Write(tx);
      if err.Some? {
        return None, err;
      }
      var rx;
      rx, err := Read(6);
      if err.Some? {
        return None, err;
      }
      v := Some(DecodeVersion(rx[0], rx[1]));
    }

    /** TargetVoltage up to the float division: the two samples, None where Go returns 0. */
    method TargetVoltage() returns (v: Option<VoltageSamples>, err: Option<Error>)
      requires Valid()
      modifies this`log
      ensures Outcome(log, v, err) == QueryVoltage(Io(), old(log))
    {
      var tx := Command(CmdGetTargetVoltage, 0);
      err := Write(tx);
      if err.Some? {
        return None, err;
      }
      var rx;
      rx, err := ReadBinary(8);
      if err.Some? {
        return None, err;
      }
      match DecodeVoltage(rx)
      case Ok(samples) => v := Some(samples);
      case Err(e) => v, err := None, Some(e);
    }

    // ---- identification (device_idcodes.go, device_cortexm.go) ----

    method CoreID() returns (id: bv32, err: Option<Error>)
      requires Valid()
      modifies this`log
      ensures Outcome(log, id, err) == QueryCoreId(Io(), old(log))
    {
      var tx := Command(CmdDebug, CmdDebugReadCoreid);
      err := Write(tx);
      if err.Some? {
        return 0, err;
      }
      var rx;
      rx, err := ReadBinary(4);
      if err.Some? {
        return 0, err;
      }
      id := Le32(rx);
    }

    /** CpuID: reads the CPUID register and caches the word only when the read succeeds. */
    method CpuID() returns (id: bv32, err: Option<Error>)
      modifies this`log, this`cpuID
      ensures log == old(log) + [Read32Op(CpuIdAddress)]
      ensures id == link(log).word && err == link(log).failure
      ensures cpuID == if err.None? then id else old(cpuID)
    {
      id, err := Read32(CpuIdAddress);
      if err.None? {
        cpuID := id;
      }
    }

    method CortexMPartNumber() returns (pn: PartNumber, err: Option<Error>)
      modifies this`log, this`cpuID
      ensures Outcome(log, pn, err) == LookupPart(link, old(cpuID), old(log))
      ensures cpuID == CachedCpuId(link, old(cpuID), old(log))
    {
      if cpuID == 0 {
        var id, e := CpuID();
        if e.Some? {
          return PartUnknown, e;
        }
      }
      return PartNumberOf(cpuID), None;
    }

    method ChipID() returns (id: bv32, err: Option<Error>)
      modifies this`log, this`cpuID
      ensures Outcome(log, id, err) == QueryChipId(link, old(cpuID), old(log))
      ensures cpuID == CachedCpuId(link, old(cpuID), old(log))
    {
      var pn;
      pn, err := CortexMPartNumber();
      if err.Some? {
        return 0, err;
      }
      if pn == PartM0 || pn == PartM0Plus {
        id, err := Read32(IdCodeAddressM0);
      } else {
        id, err := Read32(IdCodeAddressDefault);
      }
    }

    method DevID() returns (cf: ChipFamily, err: Option<Error>)
      modifies this`log, this`cpuID
      ensures Outcome(log, cf, err) == QueryDevId(link, old(cpuID), old(log))
      ensures cpuID == CachedCpuId(link, old(cpuID), old(log))
    {
      var id;
      id, err := ChipID();
      cf := FamilyOf(id);
    }

    method FlashSize() returns (size: bv16, err: Option<Error>)
      modifies this`log, this`cpuID
      ensures Outcome(log, size, err) == QueryFlashSize(link, old(cpuID), old(log))
      ensures cpuID == CachedCpuId(link, old(cpuID), old(log))
    {
      var cf;
      cf, err := DevID();
      if err.Some? {
        return 0, err;
      }
      match FlashSizeRegister(cf)
      case None => size, err := 0, Some(UnknownCore);
      case Some(a) => size, err := Read16(a);
    }

    /** getFlashloader: the loader it returns is always nil, so only the error is kept. */
    method GetFlashloader() returns (err: Option<Error>)
      modifies this`log, this`cpuID
      ensures var d := QueryDevId(link, old(cpuID), old(log));
              log == d.log && err == Flashloader(if d.err.Some? then Err(d.err.value) else Ok(d.value))
      ensures cpuID == CachedCpuId(link, old(cpuID), old(log))
    {
      var cf, e := DevID();
      if e.Some? {
        return e;
      }
      err := Flashloader(Ok(cf));
    }

    // ---- debug (device_debug_stm32.go) ----

    method CoreResetHalt() returns (err: Option<Error>)
      modifies this`log
      ensures Outcome(log, (), err) == FailFast(link, old(log), ResetHaltSequence)
    {
      ghost var ops, start := ResetHaltSequence, log;
      err := Write32(DHCSRReg, DHCSRHalt);
      if err.Some? {
        return;
      }
      assert FailFast(link, start, ops) == FailFast(link, log, ops[1..]);
      err := Write32(DEMCRReg, DEMCRHaltAfterReset);
      if err.Some? {
        return;
      }
      assert FailFast(link, start, ops) == FailFast(link, log, ops[2..]);
      err := Write32(AIRCRReg, AIRCRSysResetReq);
      if err.Some? {
        return;
      }
      assert FailFast(link, start, ops) == FailFast(link, log, ops[3..]);
      var readBack;
      readBack, err := Read32(AIRCRReg);
    }

    // ---- life cycle (device.go) ----

    method Init() returns (err: Option<Error>)
      modifies this`log, this`claimed
      ensures Outcome(log, claimed, err) == InitSequence(Io(), old(log))
      ensures err.None? ==> Valid()
    {
      log := log + [Claimed(OutEndpoint(product))];
      err := link(log).failure;
      if err.Some? {
        claimed := false;
        return;
      }
      claimed := true;
      var mode;
      mode, err := Mode();
      if err.Some? {
        return;
      }
      if mode == ModeDfu {
        var e := ExitDFUMode();
        if e.Some? {
          return None;
        }
      }
      mode, err := Mode();
      if err.Some? {
        return;
      }
      if mode != ModeDebug {
        err := EnterSWDMode();
        if err.Some? {
          return;
        }
      }
      var status;
      status, err := Status();
    }

    /** Close: nothing when not opened; otherwise the handles are released. `opened` stays. */
    method Close() returns (err: Option<Error>)
      modifies this`log
      ensures !isOpened ==> log == old(log) && err.None?
      ensures isOpened ==> log == old(log) + [Released] && err == link(log).failure
    {
      if isOpened {
        log := log + [Released];
        err := link(log).failure;
      } else {
        err := None;
      }
    }
  }
}

=== FILE: transport.dfy ===
/** The probe as the driver sees it. The USB layer (gousb) and the probe's firmware are not
    modelled: a session keeps the transcript of every request it has made, and a `Link` says
    what the probe answers to the last request of a transcript. Because the answer may depend on
    everything said before, any behaviour of the probe is some `Link`. */
module Transport {
  import opened Base

  /** stlinkUsbInEp: replies always arrive on endpoint 1. */
  const InEndpoint: nat := 1

  /** One request of the driver, in the order it is made. */
  datatype Event =
    | Claimed(outEp: nat)                 // default interface, in endpoint 1 and out endpoint outEp
    | Sent(ep: nat, frame: seq<byte>)     // one transfer on the out endpoint
    | Received(ep: nat, count: nat)       // one transfer of count bytes on the in endpoint
    | Read32Op(addr: bv32)                // the device operations whose bodies are not modelled
    | Write32Op(addr: bv32, value: bv32)
    | Read16Op(addr: bv32)
    | StatusOp
    | ExitDfuOp
    | EnterSwdOp
    | Released                            // the interface and the USB handle are closed

  /** The answer to a request: its error, if any, the bytes of a receive and the register word
      of a read (Read16 uses its low half, Status its low byte). */
  datatype Answer = Answer(failure: Option<Error>, data: seq<byte>, word: bv32)

  /** The probe: the answer to the last request of every transcript. */
  type Link = seq<Event> -> Answer

  /** What a request depends on besides the transcript: the probe, whether the session is
      opened and the out endpoint chosen for its product. */
  datatype Port = Port(link: Link, isOpened: bool, outEp: nat)

  /** The transcript after a call, the value it returns and the error it returns. */
  datatype Outcome<T> = Outcome(log: seq<Event>, value: T, err: Option<Error>)

  /** The buffer read(n) returns: Go allocates n zero bytes and the transfer fills a prefix. */
  function Fit(data: seq<byte>, n: nat): (rx: seq<byte>)
    ensures |rx| == n
    ensures forall i :: 0 <= i < n && i < |data| ==> rx[i] == data[i]
    ensures forall i :: |data| <= i < n ==> rx[i] == 0
  {
    if |data| >= n then data[..n] else data + seq(n - |data|, _ => 0)
  }

  /** write followed by read(n): both refused on a closed session, and no receive after a
      failed send. On success the reply has exactly n bytes. */
  function Exchange(p: Port, log: seq<Event>, frame: seq<byte>, n: nat): (r: Outcome<seq<byte>>)
    ensures !p.isOpened ==> r == Outcome(log, [], Some(DeviceClosed))
    ensures r.log == log || r.log == log + [Sent(p.outEp, frame)]
            || r.log == log + [Sent(p.outEp, frame), Received(InEndpoint, n)]
    ensures p.isOpened ==> log + [Sent(p.outEp, frame)] <= r.log
    ensures p.isOpened && p.link(log + [Sent(p.outEp, frame)]).failure.Some? ==>
              r == Outcome(log + [Sent(p.outEp, frame)], [], p.link(log + [Sent(p.outEp, frame)]).failure)
    ensures p.isOpened && p.link(log + [Sent(p.outEp, frame)]).failure.None? ==>
              r.log == log + [Sent(p.outEp, frame), Received(InEndpoint, n)] && r.err == p.link(r.log).failure
    ensures r.err.None? ==> r.log == log + [Sent(p.outEp, frame), Received(InEndpoint, n)]
                            && r.value == Fit(p.link(r.log).data, n)
    ensures r.err.Some? ==> r.value == []
  {
    if !p.isOpened then Outcome(log, [], Some(DeviceClosed))
    else
      var sent := log + [Sent(p.outEp, frame)];
      if p.link(sent).failure.Some? then Outcome(sent, [], p.link(sent).failure)
      else
        var got := sent + [Received(InEndpoint, n)];
        var a := p.link(got);
        if a.failure.Some? then Outcome(got, [], a.failure) else Outcome(got, Fit(a.data, n), None)
  }

  /** What encoding/binary.Read (through io.ReadFull) makes of a transfer that must fill n
      bytes. A full buffer is success even when the transfer also reported an error. Otherwise
      the transfer's error is returned, with io.EOF after some bytes turned into
      io.ErrUnexpectedEOF; a short transfer without error ends the stream, which is io.EOF when
      no byte came and io.ErrUnexpectedEOF when some did. */
  function ReadFull(a: Answer, n: nat): (r: Result<seq<byte>>)
    requires n > 0
    ensures r.Ok? <==> |a.data| >= n
    ensures r.Ok? ==> r.value == a.data[..n]
    ensures r.Err? && a.failure.None? ==> r.error == (if a.data == [] then Eof else UnexpectedEof)
    ensures r.Err? && a.failure.Some? ==>
              r.error == (if a.failure.value == Eof && a.data != [] then UnexpectedEof else a.failure.value)
  {
    if |a.data| >= n then Ok(a.data[..n])
    else if a.failure.Some? then
      if a.failure.value == Eof && a.data != [] then Err(UnexpectedEof) else Err(a.failure.value)
    else if a.data == [] then Err(Eof)
    else Err(UnexpectedEof)
  }

  /** write followed by a binary read of n bytes straight from the in endpoint. */
  function ExchangeFull(p: Port, log: seq<Event>, frame: seq<byte>, n: nat): (r: Outcome<seq<byte>>)
    requires n > 0
    ensures !p.isOpened ==> r == Outcome(log, [], Some(DeviceClosed))
    ensures r.log == log || r.log == log + [Sent(p.outEp, frame)]
            || r.log == log + [Sent(p.outEp, frame), Received(InEndpoint, n)]
    ensures p.isOpened ==> log + [Sent(p.outEp, frame)] <= r.log
    ensures p.isOpened && p.link(log + [Sent(p.outEp, frame)]).failure.Some? ==>
              r == Outcome(log + [Sent(p.outEp, frame)], [], p.link(log + [Sent(p.outEp, frame)]).failure)
    ensures p.isOpened && p.link(log + [Sent(p.outEp, frame)]).failure.None? ==>
              r.log == log + [Sent(p.outEp, frame), Received(InEndpoint, n)]
    ensures r.log == log + [Sent(p.outEp, frame), Received(InEndpoint, n)] ==>
              (r.err.None? <==> |p.link(r.log).data| >= n)
              && (r.err.Some? ==> r.err == Some(ReadFull(p.link(r.log), n).error))
    ensures r.err.None? ==> r.log == log + [Sent(p.outEp, frame), Received(InEndpoint, n)]
                            && |r.value| == n && r.value <= p.link(r.log).data
    ensures r.err.Some? ==> r.value == []
  {
    if !p.isOpened then Outcome(log, [], Some(DeviceClosed))
    else
      var sent := log + [Sent(p.outEp, frame)];
      if p.link(sent).failure.Some? then Outcome(sent, [], p.link(sent).failure)
      else
        var got := sent + [Received(InEndpoint, n)];
        match ReadFull(p.link(got), n)
        case Ok(rx) => Outcome(got, rx, None)
        case Err(e) => Outcome(got, [], Some(e))
  }

  /** Requests made one after another until one fails: the transcript grows by a prefix of ops
      that stops at the first failure, and the error is that of the last request made. */
  function FailFast(link: Link, log: seq<Event>, ops: seq<Event>): (r: Outcome<()>)
    requires ops != []
    ensures log < r.log && |r.log| <= |log| + |ops|
    ensures r.log == log + ops[..|r.log| - |log|]
    ensures r.err == link(r.log).failure
    ensures |r.log| < |log| + |ops| ==> r.err.Some?
    ensures forall j :: |log| < j < |r.log| ==> link(r.log[..j]).failure.None?
    decreases |ops|
  {
    var l := log + [ops[0]];
    if link(l).failure.Some? || |ops| == 1 then Outcome(l, (), link(l).failure)
    else
      var r := FailFast(link, l, ops[1..]);
      assert r.log[..|l|] == l;
      r
  }
}

=== FILE: wire.dfy ===
/** Little-endian words as Go's encoding/binary reads them from the probe's replies. */
module Wire {
  import opened Base

  /** The uint32 stored little-endian in four bytes. */
  function Le32(b: seq<byte>): (v: bv32)
    requires |b| == 4
    ensures v == 0 <==> b == [0, 0, 0, 0]
    ensures (v & 0xff) as bv8 == b[0] && (v >> 24) as bv8 == b[3]
  {
    (b[0] as bv32) | (b[1] as bv32 << 8) | (b[2] as bv32 << 16) | (b[3] as bv32 << 24)
  }

  /** The four little-endian bytes of a uint32. */
  function Le32Bytes(v: bv32): (b: seq<byte>)
    ensures |b| == 4
  {
    [(v & 0xff) as bv8, ((v >> 8) & 0xff) as bv8, ((v >> 16) & 0xff) as bv8, (v >> 24) as bv8]
  }

  /** Encoding and decoding are inverse, in both directions. */
  lemma Le32RoundTrip(v: bv32, b: seq<byte>)
    requires |b| == 4
    ensures Le32(Le32Bytes(v)) == v
    ensures Le32Bytes(Le32(b)) == b
  {
    var e := Le32Bytes(Le32(b));
    assert e[0] == b[0] && e[1] == b[1] && e[2] == b[2] && e[3] == b[3];
  }

  /** The int32 value of a uint32 bit pattern (two's complement). */
  function Int32(v: bv32): (x: int)
    ensures -0x8000_0000 <= x < 0x8000_0000
    ensures x == 0 <==> v == 0
    ensures v < 0x8000_0000 ==> x == v as int
    ensures v >= 0x8000_0000 ==> x == v as int - 0x1_0000_0000
  {
    if v < 0x8000_0000 then v as int else v as int - 0x1_0000_0000
  }
}
